=== FILE: README.md ===
# Doc-Chat-bot retrieval pipeline in Dafny

This project models the question-answering core of the Doc-Chat-bot backend.

The request path below is the pipeline as it works once the stray `history` keyword is dropped from the call in `stream_response`. As shipped, every non-blank question to either `/ask` endpoint is answered with an error event and then `[DONE]`, and never enters the pipeline. That call is the row under "## Findings" and is modelled both ways.

- **Request path.** A question arrives at the `/ask` endpoints. It is stripped and validated, then checked against a response cache with a time-to-live and least-recently-used eviction.
- **Retrieval.** On a miss, the query is preprocessed into an enhanced search string. The vector index is asked for `3·k` candidates. Each candidate is scored as `0.7·(1 − distance) + 0.3·keyword overlap`, and the stable top `k` by that score is kept.
- **Answering.** The generator answers over the passages, joined by blank lines. Every chunk is streamed as a server-sent event tagged with the passages' provenance and scores. A completed answer is cached.
- **Around the request path.** The project also models:
  - the embedding front-end with its two `lru_cache` memo tables;
  - the extension allow-list of the `/upload` endpoint.

Modules follow the source:

| file | module | models |
|---|---|---|
| `wrappers.dfy` | `Wrappers` | `Option` |
| `text.dfy` | `Text` | Python's `str.strip`, ASCII `str.lower`, `join` and `split` |
| `lru.dfy` | `Lru` | an `OrderedDict` as a sequence of entries from least to most recently used |
| `response_cache.dfy` | `ResponseCache` | `ResponseCache.get` and `put` |
| `memo.dfy` | `Memo` | `functools.lru_cache` around a pure function |
| `embeddings.dfy` | `Embeddings` | `CachedEmbeddings` |
| `query.dfy` | `Query` | `preprocess_query` and `calculate_keyword_score` |
| `ranking.dfy` | `Ranking` | `hybrid_search`, with `heapq.nlargest` as a stable top-k over candidate positions |
| `pipeline.dfy` | `Pipeline` | `answer_question_stream` |
| `server.dfy` | `Server` | `stream_response`, `GET /ask`, `POST /ask`, and the `/upload` extension check |

Collaborators are parameters of the model, not code:

- **The linguistic analyser** (spaCy) is a function from text to tokens.
- **The vector index** (Chroma) is a function from a search string and a limit to candidates, or a failure.
- **The answer generator** (the Groq client) is a function from context and question to the chunks it yields, followed by an optional exception.
- **The embedding model** is a pair of pure functions.
- **The clock** is an explicit `real` instant. A request reads it at the cache lookup and again at the cache write.

Scores are exact reals.

## Model

| member | source | states |
|---|---|---|
| Text.Strip | backend/rag_pipeline.py:118 | the stripped text is empty exactly when the input is all whitespace; otherwise it starts and ends with non-whitespace, and the input is it surrounded by whitespace runs |
| Text.StripIdempotent | backend/main.py:155 | stripping an already stripped question changes nothing |
| Text.Lower | backend/rag_pipeline.py:127 | lower-casing keeps the length, leaves no upper-case letter, and changes a character only by turning an upper-case letter into its lower-case partner |
| Text.LowerIdempotent | backend/rag_pipeline.py:127 | lower-casing lower-cased text changes nothing |
| Text.SplitJoin | backend/rag_pipeline.py:118 | joining separator-free parts with a one-character separator and splitting on it gives the parts back |
| Lru.RemoveSpec | backend/rag_pipeline.py:39 | deleting a key keeps keys distinct, removes that key only, shrinks by one exactly when it was present, and answers every other key as before |
| Lru.AssignMoveToEnd | backend/rag_pipeline.py:46-47 | assigning a key and then moving it to the end is removing it and appending the new entry |
| Lru.MoveToEndSpec | backend/rag_pipeline.py:42 | moving a present key to the end keeps its length and distinct keys, puts that key last, and changes no lookup |
| Lru.PopFirstSpec | backend/rag_pipeline.py:49-50 | dropping the oldest entry keeps keys distinct, removes that key, and changes no other lookup |
| ResponseCache.DefaultCacheKeepsAnHour | backend/rag_pipeline.py:28-31 | a cache built with the defaults (1000 entries, 3600 seconds) is well formed and empty, and an answer put into it is returned by any get within an hour |
| ResponseCache.Get | backend/rag_pipeline.py:33-43 | an absent question gives nothing and leaves the cache untouched; an entry more than `ttl` seconds old gives nothing and is deleted; a fresh entry returns its answer and becomes most recently used; well-formedness is preserved |
| ResponseCache.Put | backend/rag_pipeline.py:45-50 | the answer is stored, stamped now, as the most recently used entry replacing any earlier one; the oldest entry is evicted only when the cache exceeds its capacity; well-formedness is preserved |
| ResponseCache.PutKeepsOthers | backend/rag_pipeline.py:45-50 | any other question still cached after a put keeps its earlier answer, and with room to spare (or on an overwrite) no other question is lost |
| ResponseCache.PutThenGetFresh | backend/rag_pipeline.py:37-47 | an answer put at one instant is returned by a get at most `ttl` seconds later |
| ResponseCache.PutThenGetStale | backend/rag_pipeline.py:37-40 | after more than `ttl` seconds the answer is gone and its entry deleted |
| ResponseCache.GetHitIdempotent | backend/rag_pipeline.py:42-43 | repeating a fresh hit at the same instant returns the same answer and the same cache |
| ResponseCache.GetProtectsFromEviction | backend/rag_pipeline.py:42-50 | with capacity at least two, an entry just read survives the next put of another question, even one that evicts |
| Memo.Resolve | backend/rag_pipeline.py:218-219 | the wrapped function runs exactly when the key is not cached, its value is then the answer, the capacity is kept, and the table grows by at most one |
| Memo.ResolveAgrees | backend/rag_pipeline.py:218-219 | a table holding only values of the function answers with the function's value and keeps holding only its values |
| Memo.ResolveValid | backend/rag_pipeline.py:218-219 | the table keeps distinct keys and never holds more than its capacity |
| Memo.ResolveCachesKey | backend/rag_pipeline.py:218-219 | with capacity at least one the key is cached after the call |
| Memo.ResolveHitKeys | backend/rag_pipeline.py:218-219 | a hit keeps exactly the same cached keys |
| Memo.ResolveRoomKeys | backend/rag_pipeline.py:218-219 | with room to spare the cached keys become the old ones plus the key |
| Memo.ResolveHitValue | backend/rag_pipeline.py:218-219 | a hit answers with the value stored for the key |
| Memo.ResolveMakesRecent | backend/rag_pipeline.py:218-219 | with capacity at least one, the key just resolved is the most recently used entry, on a hit as on a miss |
| Memo.ResolveEvictsLru | backend/rag_pipeline.py:218-219 | a miss on a full table drops the least recently used entry and appends the new key with its computed value |
| Embeddings.EmbedDocuments | backend/rag_pipeline.py:228-258 | batching is invisible: the result is the one-by-one pass over all texts; the output is parallel to the input, each vector is the model's embedding of its text, the query table is untouched, and both tables stay well formed |
| Embeddings.ResolvePrefixAgrees | backend/rag_pipeline.py:239-243 | every output position holds the model's embedding of the text at that position, whether hit or miss |
| Embeddings.ResolvePrefixValid | backend/rag_pipeline.py:218 | a pass keeps the document table well formed and its capacity unchanged |
| Embeddings.ResolvePrefixCalls | backend/rag_pipeline.py:222-223 | the model is asked only about texts of the input |
| Embeddings.ResolvePrefixCached | backend/rag_pipeline.py:239-243 | when every text is cached the model is never called and the cached keys stay the same |
| Embeddings.ResolvePrefixGrowth | backend/rag_pipeline.py:239-243 | a pass adds at most one table entry per text |
| Embeddings.ResolvePrefixNoEviction | backend/rag_pipeline.py:239-243 | with room for every text, the cached keys afterwards are exactly the old keys and the texts |
| Embeddings.ResolvePrefixCallsExactly | backend/rag_pipeline.py:239-243 | with room for every text, the model is called for exactly the texts not cached beforehand |
| Embeddings.ResolvePrefixCallsOnce | backend/rag_pipeline.py:239-243 | with room for every text, the model is called at most once per distinct text, so duplicates in the input are computed once |
| Embeddings.EmbedQuery | backend/rag_pipeline.py:260-261 | a query is answered from the query table with the model's query embedding; the document table is untouched |
| Embeddings.FreshInstanceCallsEachText | backend/rag_pipeline.py:216-219 | a new instance with the default size of 1000, given at most 1000 texts, calls the model for exactly the distinct texts and answers each position with its embedding |
| Embeddings.SecondEmbedIsFree | backend/rag_pipeline.py:228-258 | embedding the same texts again, with room for all, calls the model for nothing and gives the same vectors |
| Query.Important | backend/rag_pipeline.py:115-117 | the kept tokens are all important, and each important token is kept exactly as often as it occurs |
| Query.ImportantSingle | backend/rag_pipeline.py:115-117 | a single token is kept exactly when it is a keyword or neither a stop word nor punctuation |
| Query.ImportantAppend | backend/rag_pipeline.py:115-117 | keeping distributes over concatenation, so the kept tokens stay in analysis order |
| Query.Preprocess | backend/rag_pipeline.py:109-119 | the analysis returned is the query's, and with no important token the search string is the stripped query |
| Query.PreprocessSpec | backend/rag_pipeline.py:118 | with a kept token, the search string is the kept tokens' texts, in analysis order, joined by single spaces; splitting it on spaces gives those texts back when none holds a space; with none kept it is the stripped query, which has no surrounding whitespace |
| Query.KeywordTokensKept | backend/rag_pipeline.py:128-129 | every token that contributes a scoring term is one that preprocessing keeps in the search string |
| Query.Matches | backend/rag_pipeline.py:132 | the count is at most the number of words, zero exactly when no word is a term, and full exactly when every word is |
| Query.MatchesAppend | backend/rag_pipeline.py:132 | counting matches distributes over concatenation |
| Query.KeywordScore | backend/rag_pipeline.py:121-133 | the score is non-negative and zero when the query has no keyword terms |
| Query.KeywordScoreBounds | backend/rag_pipeline.py:130-133 | the score is zero exactly when there are no terms or no candidate token is a term, and at most the candidate's token count over the number of terms |
| Query.KeywordScoreCanExceedOne | backend/rag_pipeline.py:132-133 | a repeated term counts every time: one term matched twice scores 2.0, so the score is not a fraction |
| Ranking.FusionMonotone | backend/rag_pipeline.py:156-157 | a closer candidate with at least the same keyword score has a strictly higher hybrid score, and at equal distance the higher keyword score wins |
| Ranking.FusionKeepsVectorOrder | backend/rag_pipeline.py:156-157 | with equal keyword scores, one candidate outscores another exactly when it is closer |
| Ranking.BeforeOrder | backend/rag_pipeline.py:167 | the ranking order, by descending score with ties to the earlier candidate, is a strict total order |
| Ranking.BestBelow | backend/rag_pipeline.py:167 | the chosen position is the one ranking ahead of every other pool position below the bound, and there is none exactly when the pool has no such position |
| Ranking.Select | backend/rag_pipeline.py:167 | selection returns `min(k, size of the pool)` positions, all drawn from the pool |
| Ranking.SelectOrdered | backend/rag_pipeline.py:167 | the selected positions are in ranking order |
| Ranking.SelectClosed | backend/rag_pipeline.py:167 | no pool position left out ranks ahead of a selected one |
| Ranking.TopK | backend/rag_pipeline.py:167 | returns `min(k, n)` positions, each below `n` |
| Ranking.TopKSpec | backend/rag_pipeline.py:167 | the top-k has `min(k, n)` positions in ranking order, and none left out ranks ahead of one kept |
| Ranking.TopKAgreeAt | backend/rag_pipeline.py:167 | where two valid top-k selections first agree up to a position and then differ, the second one's entry there ranks ahead of the first one's |
| Ranking.TopKUnique | backend/rag_pipeline.py:167 | any selection meeting the top-k characterisation is the one computed, so the result is the first `k` of a stable descending sort |
| Ranking.TopKFirst | backend/rag_pipeline.py:167 | a position whose score beats every other is first in the top-k for any `k` of at least one |
| Ranking.HybridSearch | backend/rag_pipeline.py:135-169 | an index failure propagates; otherwise `min(k, candidates)` results come back in descending hybrid score |
| Ranking.HybridSearchRanking | backend/rag_pipeline.py:142-167 | the index is asked for `3·k` candidates with the enhanced text, and the results are the scored candidates at the stable top-k positions |
| Ranking.HybridSearchScores | backend/rag_pipeline.py:149-165 | each result is some returned candidate's passage and provenance, with similarity `1 − distance` and hybrid score `0.7·similarity + 0.3·keyword score` |
| Ranking.HybridSearchFirst | backend/rag_pipeline.py:149-167 | for any `k` of at least one, the candidate closest to the query whose keyword score is at least every other's is the first result, scored from its own distance and keyword score |
| Pipeline.Respond | backend/rag_pipeline.py:188-212 | a reply has an answer to store exactly when it raised nothing; the stored text is the concatenation of the streamed chunks, under the provenance and scores every chunk carried |
| Pipeline.RespondGenerates | backend/rag_pipeline.py:188-208 | when hybrid search ranks a non-empty list, the reply is generation over exactly that list |
| Pipeline.Generate | backend/rag_pipeline.py:197-212 | a generated reply has an answer to store exactly when the generator raised nothing, and that answer is the concatenation of the yielded chunks under the provenance and scores each chunk carried |
| Pipeline.AnswerStream | backend/rag_pipeline.py:171-212 | a request keeps the cache's capacity and time-to-live and leaves a well-formed cache well formed |
| Pipeline.SearchFailurePropagates | backend/rag_pipeline.py:188 | with no cache hit, an index failure ends the request with that exception: nothing is yielded or stored, and the cache is as the lookup left it |
| Pipeline.CacheHitShortCircuits | backend/rag_pipeline.py:181-186 | a hit yields the cached answer once and does no search or generation, whatever the collaborators would do |
| Pipeline.NoCacheIsolated | backend/rag_pipeline.py:180-212 | with caching off the cache comes back unchanged and what is yielded does not depend on it |
| Pipeline.NoResultsFallback | backend/rag_pipeline.py:189-194 | no results yields the single fallback answer with empty provenance and scores, cached exactly when caching is on |
| Pipeline.GenerationPath | backend/rag_pipeline.py:197-208 | the generator sees the passages in rank order joined by blank lines; the units are its chunks in order; its exception ends the reply |
| Pipeline.GenerationProvenance | backend/rag_pipeline.py:201-207 | every unit carries each result's metadata and hybrid score, in rank order |
| Pipeline.StoreOnlyOnCompletion | backend/rag_pipeline.py:209-212 | for any well-formed cache, even one of capacity zero, the cache is written only by a completed request with caching on, and otherwise is as the lookup left it; with capacity at least one, a write leaves the answer stamped at write time as the newest entry |
| Pipeline.SingleShotAnswer | backend/llama_helper.py:63-70 | given the generator's one-chunk-or-raise behaviour, a successful request yields exactly one unit, which is the stored answer, and a failed one yields none |
| Pipeline.RepeatWithinTtl | backend/rag_pipeline.py:181-212 | asking again within the time-to-live replays one unit whose text is everything the first request streamed, with the same provenance and scores |
| Server.Frame | backend/main.py:124-139 | the stream ends with exactly one end marker, with one event per unit and one more for an error |
| Server.UnframeFrame | backend/main.py:126-134 | a client reading the stream recovers exactly the units and the error that were framed |
| Server.FrameUnframe | backend/main.py:126-139 | every stream a client accepts is the framing of what it read |
| Server.ErrorIsLast | backend/main.py:135-139 | after an error event only the end marker follows, and the events before it are the units' data events |
| Server.BindKeywords | backend/main.py:124 | the call binds exactly when every keyword is a declared parameter, and otherwise fails with a message naming an undeclared one |
| Server.StreamResponseAsWritten | backend/main.py:121-139 | no contract of its own; `Server.HistoryKeywordAlwaysFails` states what it streams |
| Server.HistoryKeywordAlwaysFails | backend/main.py:124 | as shipped, every stream is one error event naming `history`, then the end marker, and the cache is untouched |
| Server.StreamResponse | backend/main.py:121-139 | without the extra keyword, a client reading the stream gets exactly the pipeline's units and error, and the cache is the pipeline's |
| Server.CorrectedStreamServesCache | backend/main.py:121-134 | with that fix, a cached question streams its stored answer as one data event and the end marker |
| Server.AskGet | backend/main.py:141-150 | a question that is all whitespace is refused with 400 and the required-field message; any other is streamed stripped |
| Server.AskPost | backend/main.py:152-162 | the body's question is refused exactly when it is all whitespace, and otherwise streamed stripped with the body's cache flag |
| Server.AskEndpointsAgree | backend/main.py:141-162 | GET and POST give the same response for the same question and flag |
| Server.AskIgnoresPadding | backend/main.py:144-148 | surrounding whitespace does not change the response, so padded and unpadded questions share a cache entry |
| Server.LastDot | backend/main.py:63 | the position found holds a dot with no dot after it, and there is none exactly when the name has no dot |
| Server.Upload | backend/main.py:62-68 | a refusal is status 400 |
| Server.UploadAdmitsExactly | backend/main.py:63-64 | a file is admitted exactly when its base name has a dot, not its first character, with no later dot and an allowed lower-cased extension from there |
| Server.UploadByExtension | backend/main.py:63-64 | a plain name `stem.ext` with a non-empty stem and a dot-free extension is admitted exactly when `.ext`, lower-cased, is in the allow-list |
| Server.PlainBaseName | backend/main.py:63 | a slash-free name other than empty or `.` is its own base name |
| Server.LastDotBefore | backend/main.py:63 | the last dot of `stem.ext` is the one before a dot-free extension |
| Server.SuffixOf | backend/main.py:63 | the suffix of `stem.ext` is `.ext`, or empty when the stem or the extension is empty |
| Server.UploadIgnoresCase | backend/main.py:63-64 | any plain name ending in `.PDF` is admitted |
| Server.UploadRejectsBareExtension | backend/main.py:63-68 | a name that is only a dot and an extension, such as `.txt`, has no suffix and is refused |
| Server.UploadRejectsTrailingDot | backend/main.py:63-68 | a name ending in a dot is refused |
| Server.UploadRejectsDoubleExtension | backend/main.py:63-68 | only the last extension counts: `name.txt.gz` is refused |

## Left out

- The linguistic analyser, the vector index, the embedding model and the answer generator are parameters. In the source these are spaCy, Chroma, the Hugging Face embeddings and the Groq client. Their internals, and the prompt text built by `_create_prompt`, are not part of this model.
- The embedding calls that Chroma makes through `CachedEmbeddings` while indexing and searching are not traced. The embedding model is total, so a failing embedding service is not modelled.
- Floating-point arithmetic is replaced by exact reals, and the clock by explicit instants.
- Concurrency and `asyncio` scheduling are not modelled. One request runs at a time over an explicit cache value.
- `Pipeline.AnswerStream`: a request is modelled as read to its end. A stream abandoned before its last chunk, for example by a client disconnecting, is cancelled and caches nothing, and the model has no partial reads. The `logger.exception` call in `stream_response` is not modelled either.
- The JSON and `data: …` text of the server-sent events is not modelled. Events are a datatype.
- The `except KeyError` branch in `embed_documents` is not modelled. The `lru_cache` wrapper computes on a miss and never raises `KeyError`, so that branch and the batched call of uncached texts are unreachable.
- The `lru_cache` on `preprocess_query` and `calculate_keyword_score` is not modelled. Both functions are deterministic, so the cache changes no result.
- Saving, processing and indexing an admitted upload are not modelled. The 500 path for a processing failure is also not modelled.
- `Server.Upload`: the 400 body carries only the fixed prefix "File type not allowed. Allowed types: ". The source appends the allowed extensions joined by ", " in the set's iteration order, which depends on string hashing and is not modelled.
- `Server.Upload`: the filename is a POSIX path, and `Path.suffix` follows the rule before Python 3.14, where a name ending in a dot has no suffix.
- `Query.PreprocessSpec`: the split round trip is stated only when no kept token's text holds a space. A kept whitespace token, which is neither a stop word nor punctuation, splits into several pieces. The search string itself is still stated exactly, as the join of the kept texts.
- `Text.Lower`: folds ASCII letters only, not the full Unicode case mapping of `str.lower`.
- `Server.AskGet` streams through `Server.StreamResponse`, the corrected stream. The stream as shipped is `Server.StreamResponseAsWritten`.
- `Server.AskPost` streams through `Server.StreamResponse`, the corrected stream, like `Server.AskGet`. The stream as shipped is `Server.StreamResponseAsWritten`.
- The health check, startup, the data preparation script, setup, the frontend and the query script are not part of this model.

Two modelling notes:

- The response cache is keyed by the stripped question, because both `/ask` endpoints strip before calling the pipeline.
- `embed_documents` resolves every text through the memo one by one, and a miss calls the model with that single text, so the misses of a batch are never gathered into one call.

## Findings

| source | as written | input that shows it | evidently intended | confidence | as-written member | corrected member |
|---|---|---|---|---|---|---|
| backend/main.py:124 | `stream_response` calls `answer_question_stream(question, use_cache=…, history=…)`, but that method declares only `query`, `k` and `use_cache` (backend/rag_pipeline.py:171-176). The call raises `TypeError`, which the handler turns into an error event. | any non-blank question to `GET /ask` or `POST /ask` | stream the pipeline's answer, ignoring or forwarding the history | not executed | Server.HistoryKeywordAlwaysFails | Server.StreamResponse |

=== FILE: embeddings.dfy ===
/**
 * `CachedEmbeddings` (backend/rag_pipeline.py): document texts go through
 * one `lru_cache` memo and query texts through another, so a text embedded
 * as a document and as a query is computed separately in each namespace.
 * The embedding model is a pair of pure functions.
 */
module Embeddings {
  import opened Lru
  import M = Memo

  type Vector = seq<real>

  /** The wrapped embedding model: `embed_documents([t])[0]` and `embed_query(t)`. */
  datatype Model = Model(embedDocument: string -> Vector, embedQuery: string -> Vector)

  /** The two memo tables of a `CachedEmbeddings` instance. */
  datatype CachedEmbeddings = CachedEmbeddings(docs: M.Memo<Vector>, queries: M.Memo<Vector>)

  const DefaultCacheSize: nat := 1000
  const BatchSize: nat := 32

  function Create(cacheSize: nat): (e: CachedEmbeddings)
    ensures Valid(e) && e.docs.entries == [] && e.queries.entries == []
  {
    CachedEmbeddings(M.Empty(cacheSize), M.Empty(cacheSize))
  }

  ghost predicate Valid(e: CachedEmbeddings)
  {
    M.Valid(e.docs) && M.Valid(e.queries)
  }

  /** Both tables hold only what the model computes. */
  ghost predicate Agrees(e: CachedEmbeddings, model: Model)
  {
    M.Agrees(e.docs, model.embedDocument) && M.Agrees(e.queries, model.embedQuery)
  }

  /** Result of resolving a run of document texts through the memo, one by one. */
  datatype Pass = Pass(out: seq<Vector>, memo: M.Memo<Vector>, calls: seq<string>)

  predicate NoDuplicates(s: seq<string>)
  {
    forall i, j :: 0 <= i < j < |s| ==> s[i] != s[j]
  }

  /** Resolves the first `n` texts left to right through the document memo. */
  function ResolvePrefix(m: M.Memo<Vector>, texts: seq<string>, n: nat, f: string -> Vector): (p: Pass)
    requires n <= |texts|
    ensures |p.out| == n
  {
    if n == 0 then Pass([], m, [])
    else Step(ResolvePrefix(m, texts, n - 1, f), texts[n - 1], f)
  }

  /** Resolves one more text after a pass. */
  function Step(p: Pass, t: string, f: string -> Vector): Pass
  {
    var s := M.Resolve(p.memo, t, f);
    Pass(p.out + [s.value], s.memo, p.calls + (if s.computed then [t] else []))
  }

  /**
   * With a table that only ever stored model values, output `i` of a pass
   * is the model's embedding of `texts[i]`, hit or miss, and the table
   * still holds only model values.
   */
  lemma {:induction false} ResolvePrefixAgrees(m: M.Memo<Vector>, texts: seq<string>, n: nat, f: string -> Vector)
    requires n <= |texts| && M.Agrees(m, f)
    ensures var p := ResolvePrefix(m, texts, n, f);
      M.Agrees(p.memo, f) && forall i :: 0 <= i < n ==> p.out[i] == f(texts[i])
  {
    if n > 0 {
      ResolvePrefixAgrees(m, texts, n - 1, f);
      M.ResolveAgrees(ResolvePrefix(m, texts, n - 1, f).memo, texts[n - 1], f);
    }
  }

  /** A pass keeps the memo well formed. */
  lemma {:induction false} ResolvePrefixValid(m: M.Memo<Vector>, texts: seq<string>, n: nat, f: string -> Vector)
    requires n <= |texts| && M.Valid(m)
    ensures var p := ResolvePrefix(m, texts, n, f);
      M.Valid(p.memo) && p.memo.capacity == m.capacity
  {
    if n > 0 {
      var q := ResolvePrefix(m, texts, n - 1, f);
      ResolvePrefixValid(m, texts, n - 1, f);
      M.ResolveValid(q.memo, texts[n - 1], f);
    }
  }

  /** A pass asks the model only about texts it was given. */
  lemma {:induction false} ResolvePrefixCalls(m: M.Memo<Vector>, texts: seq<string>, n: nat, f: string -> Vector)
    requires n <= |texts|
    ensures forall t :: t in ResolvePrefix(m, texts, n, f).calls ==> t in texts[..n]
  {
    if n > 0 {
      ResolvePrefixCalls(m, texts, n - 1, f);
      assert texts[..n] == texts[..n - 1] + [texts[n - 1]];
    }
  }

  /** When every text is already cached the model is never called and the cached keys stay the same. */
  lemma {:induction false} ResolvePrefixCached(m: M.Memo<Vector>, texts: seq<string>, n: nat, f: string -> Vector)
    requires n <= |texts| && M.Valid(m)
    requires forall t :: t in texts ==> t in Keys(m.entries)
    ensures var p := ResolvePrefix(m, texts, n, f);
      p.calls == [] && forall k :: k in Keys(p.memo.entries) <==> k in Keys(m.entries)
  {
    if n > 0 {
      var q := ResolvePrefix(m, texts, n - 1, f);
      var last := texts[n - 1];
      ResolvePrefixCached(m, texts, n - 1, f);
      ResolvePrefixValid(m, texts, n - 1, f);
      var s := M.Resolve(q.memo, last, f);
      assert last in Keys(q.memo.entries);
      M.ResolveHitKeys(q.memo, last, f);
      assert !s.computed;
      assert ResolvePrefix(m, texts, n, f) == Pass(q.out + [s.value], s.memo, q.calls);
    }
  }

  /** The first `n` texts are the first `n - 1` and one more. */
  lemma PrefixMembership(texts: seq<string>, n: nat)
    requires 0 < n <= |texts|
    ensures forall t :: t in texts[..n] <==> t in texts[..n - 1] || t == texts[n - 1]
  {
    assert texts[..n] == texts[..n - 1] + [texts[n - 1]];
  }

  /** A pass adds at most one table entry per text. */
  lemma {:induction false} ResolvePrefixGrowth(m: M.Memo<Vector>, texts: seq<string>, n: nat, f: string -> Vector)
    requires n <= |texts|
    ensures |ResolvePrefix(m, texts, n, f).memo.entries| <= |m.entries| + n
  {
    if n > 0 {
      var q := ResolvePrefix(m, texts, n - 1, f);
      ResolvePrefixGrowth(m, texts, n - 1, f);
      assert ResolvePrefix(m, texts, n, f) == Step(q, texts[n - 1], f);
    }
  }

  /** When nothing can be evicted, a pass leaves exactly the old keys and the new texts cached. */
  lemma {:induction false} ResolvePrefixNoEviction(m: M.Memo<Vector>, texts: seq<string>, n: nat, f: string -> Vector)
    requires n <= |texts| && M.Valid(m) && |m.entries| + n <= m.capacity
    ensures forall k :: k in Keys(ResolvePrefix(m, texts, n, f).memo.entries) <==> k in Keys(m.entries) || k in texts[..n]
  {
    if n > 0 {
      var q := ResolvePrefix(m, texts, n - 1, f);
      ResolvePrefixNoEviction(m, texts, n - 1, f);
      ResolvePrefixValid(m, texts, n - 1, f);
      ResolvePrefixGrowth(m, texts, n - 1, f);
      var s := M.Resolve(q.memo, texts[n - 1], f);
      assert ResolvePrefix(m, texts, n, f).memo == s.memo;
      M.ResolveRoomKeys(q.memo, texts[n - 1], f);
      PrefixMembership(texts, n);
    }
  }

  /**
   * When nothing can be evicted, a pass calls the model for exactly the
   * texts that were not cached beforehand.
   */
  lemma {:induction false} ResolvePrefixCallsExactly(m: M.Memo<Vector>, texts: seq<string>, n: nat, f: string -> Vector)
    requires n <= |texts| && M.Valid(m) && |m.entries| + n <= m.capacity
    ensures forall t :: t in ResolvePrefix(m, texts, n, f).calls <==> t in texts[..n] && t !in Keys(m.entries)
  {
    if n > 0 {
      var q := ResolvePrefix(m, texts, n - 1, f);
      var last := texts[n - 1];
      ResolvePrefixCallsExactly(m, texts, n - 1, f);
      ResolvePrefixNoEviction(m, texts, n - 1, f);
      var s := M.Resolve(q.memo, last, f);
      assert ResolvePrefix(m, texts, n, f).calls == q.calls + (if s.computed then [last] else []);
      PrefixMembership(texts, n);
    }
  }

  /** When nothing can be evicted, a pass calls the model at most once per distinct text. */
  lemma {:induction false} ResolvePrefixCallsOnce(m: M.Memo<Vector>, texts: seq<string>, n: nat, f: string -> Vector)
    requires n <= |texts| && M.Valid(m) && |m.entries| + n <= m.capacity
    ensures NoDuplicates(ResolvePrefix(m, texts, n, f).calls)
  {
    if n > 0 {
      var q := ResolvePrefix(m, texts, n - 1, f);
      var last := texts[n - 1];
      ResolvePrefixCallsOnce(m, texts, n - 1, f);
      ResolvePrefixCallsExactly(m, texts, n - 1, f);
      ResolvePrefixNoEviction(m, texts, n - 1, f);
      var s := M.Resolve(q.memo, last, f);
      assert ResolvePrefix(m, texts, n, f).calls == q.calls + (if s.computed then [last] else []);
      assert s.computed ==> last !in q.calls;
    }
  }

  /**
   * A freshly created instance with the default size, given at most that
   * many texts, calls the model once for each distinct text and answers
   * every position with the model's embedding.
   */
  lemma FreshInstanceCallsEachText(texts: seq<string>, model: Model)
    requires |texts| <= DefaultCacheSize
    ensures var p := ResolvePrefix(Create(DefaultCacheSize).docs, texts, |texts|, model.embedDocument);
      && (forall t :: t in p.calls <==> t in texts)
      && (forall i :: 0 <= i < |texts| ==> p.out[i] == model.embedDocument(texts[i]))
  {
    var m := Create(DefaultCacheSize).docs;
    ResolvePrefixCallsExactly(m, texts, |texts|, model.embedDocument);
    ResolvePrefixAgrees(m, texts, |texts|, model.embedDocument);
    assert texts[..|texts|] == texts;
  }

  /**
   * `embed_documents(texts)`: walks the input in batches of `BatchSize`,
   * resolving each text of a batch through the document memo in order.
   * Batching is invisible: the result is what resolving all texts one by
   * one gives. The output is parallel to the input, each vector is the
   * model's embedding of its text, and the query memo is untouched.
   */
  method EmbedDocuments(e: CachedEmbeddings, texts: seq<string>, model: Model)
    returns (out: seq<Vector>, e': CachedEmbeddings, calls: seq<string>)
    ensures Pass(out, e'.docs, calls) == ResolvePrefix(e.docs, texts, |texts|, model.embedDocument)
    ensures e'.queries == e.queries
    ensures |out| == |texts|
    ensures Agrees(e, model) ==>
      Agrees(e', model) && forall i :: 0 <= i < |texts| ==> out[i] == model.embedDocument(texts[i])
    ensures Valid(e) ==> Valid(e')
  {
    var f := model.embedDocument;
    var p := Pass([], e.docs, []);
    var start := 0;
    while start < |texts|
      invariant start <= |texts|
      invariant p == ResolvePrefix(e.docs, texts, start, f)
      decreases |texts| - start
    {
      var stop := if start + BatchSize <= |texts| then start + BatchSize else |texts|;
      // Every text of the batch is answered by the memo (it computes on a
      // miss), so `uncached_texts` stays empty; the (position, vector)
      // pairs are produced in position order, so sorting them and
      // extending the results is appending each vector as it comes.
      for j := start to stop
        invariant p == ResolvePrefix(e.docs, texts, j, f)
      {
        p := Step(p, texts[j], f);
      }
      start := stop;
    }
    out, e', calls := p.out, e.(docs := p.memo), p.calls;
    if Agrees(e, model) {
      ResolvePrefixAgrees(e.docs, texts, |texts|, f);
    }
    if Valid(e) {
      ResolvePrefixValid(e.docs, texts, |texts|, f);
    }
  }

  /** `embed_query(text)`: the query memo answers; the document memo is untouched. */
  function EmbedQuery(e: CachedEmbeddings, text: string, model: Model): (r: (Vector, CachedEmbeddings))
    ensures r.1.docs == e.docs
    ensures Agrees(e, model) ==> r.0 == model.embedQuery(text) && Agrees(r.1, model)
    ensures Valid(e) ==> Valid(r.1)
  {
    var s := M.Resolve(e.queries, text, model.embedQuery);
    M.ResolveSpec(e.queries, text, model.embedQuery);
    (s.value, e.(queries := s.memo))
  }

  /**
   * Embedding the same texts twice in a row, with room for all of them,
   * asks the model nothing the second time and answers identically.
   */
  lemma SecondEmbedIsFree(e: CachedEmbeddings, texts: seq<string>, model: Model)
    requires Valid(e) && Agrees(e, model)
    requires |e.docs.entries| + |texts| <= e.docs.capacity
    ensures var f := model.embedDocument;
      var p1 := ResolvePrefix(e.docs, texts, |texts|, f);
      var p2 := ResolvePrefix(p1.memo, texts, |texts|, f);
      p2.calls == [] && p2.out == p1.out
  {
    var f := model.embedDocument;
    var p1 := ResolvePrefix(e.docs, texts, |texts|, f);
    ResolvePrefixNoEviction(e.docs, texts, |texts|, f);
    ResolvePrefixAgrees(e.docs, texts, |texts|, f);
    ResolvePrefixValid(e.docs, texts, |texts|, f);
    assert texts[..|texts|] == texts;
    ResolvePrefixCached(p1.memo, texts, |texts|, f);
    ResolvePrefixAgrees(p1.memo, texts, |texts|, f);
  }
}

=== FILE: lru.dfy ===
/**
 * An insertion-ordered dictionary (Python's `OrderedDict`, and the recency
 * list inside `functools.lru_cache`) as a sequence of entries ordered from
 * least to most recently used. Keys are distinct in every well-formed order.
 */
module Lru {
  import opened Wrappers

  datatype Entry<K, V> = Entry(key: K, value: V)

  /** The keys of `es`, in order. */
  function Keys<K, V>(es: seq<Entry<K, V>>): (ks: seq<K>)
    ensures |ks| == |es|
    ensures forall i :: 0 <= i < |es| ==> ks[i] == es[i].key
  {
    seq(|es|, i requires 0 <= i < |es| => es[i].key)
  }

  ghost predicate DistinctKeys<K, V>(es: seq<Entry<K, V>>)
  {
    forall i, j :: 0 <= i < j < |es| ==> es[i].key != es[j].key
  }

  function IndexFrom<K(==), V>(es: seq<Entry<K, V>>, k: K, from: nat): (r: Option<nat>)
    requires from <= |es|
    ensures r.None? ==> forall i :: from <= i < |es| ==> es[i].key != k
    ensures r.Some? ==> from <= r.value < |es| && es[r.value].key == k
    decreases |es| - from
  {
    if from == |es| then None
    else if es[from].key == k then Some(from)
    else IndexFrom(es, k, from + 1)
  }

  /** Position of `k` in `es`; `None` exactly when `k` is not a key of `es`. */
  function IndexOf<K(==), V>(es: seq<Entry<K, V>>, k: K): (r: Option<nat>)
    ensures r.None? <==> k !in Keys(es)
    ensures r.Some? ==> r.value < |es| && es[r.value].key == k
  {
    IndexFrom(es, k, 0)
  }

  /** In a well-formed order a key sits at exactly one position. */
  lemma IndexOfUnique<K, V>(es: seq<Entry<K, V>>, i: nat)
    requires DistinctKeys(es) && i < |es|
    ensures IndexOf(es, es[i].key) == Some(i)
  {
  }

  /** The value stored under `k`, if any (`od.get(k)`). */
  function Lookup<K(==), V>(es: seq<Entry<K, V>>, k: K): (r: Option<V>)
    ensures r.None? <==> k !in Keys(es)
    ensures DistinctKeys(es) ==> forall i :: 0 <= i < |es| && es[i].key == k ==> r == Some(es[i].value)
  {
    match IndexOf(es, k)
    case None => None
    case Some(i) => Some(es[i].value)
  }

  /** `del od[k]`: drops the entry for `k`, keeping the others in order. */
  function Remove<K(==), V>(es: seq<Entry<K, V>>, k: K): seq<Entry<K, V>>
  {
    match IndexOf(es, k)
    case None => es
    case Some(i) => es[..i] + es[i + 1..]
  }

  /** `od[k] = v`: replaces the value in place, or appends a new entry. */
  function Assign<K(==), V>(es: seq<Entry<K, V>>, k: K, v: V): (r: seq<Entry<K, V>>)
    ensures k in Keys(r)
  {
    match IndexOf(es, k)
    case None =>
      var r := es + [Entry(k, v)];
      assert Keys(r)[|es|] == k;
      r
    case Some(i) =>
      var r := es[i := Entry(k, v)];
      assert Keys(r)[i] == k;
      r
  }

  /** `od.move_to_end(k)`: makes `k` the most recently used key. */
  function MoveToEnd<K(==), V>(es: seq<Entry<K, V>>, k: K): seq<Entry<K, V>>
    requires k in Keys(es)
  {
    var i := IndexOf(es, k).value;
    es[..i] + es[i + 1..] + [es[i]]
  }

  /** `od.popitem(last=False)`: drops the least recently used entry. */
  function PopFirst<K, V>(es: seq<Entry<K, V>>): seq<Entry<K, V>>
    requires |es| > 0
  {
    es[1..]
  }

  /**
   * Removing `k` from a well-formed order keeps it well formed, leaves no
   * entry for `k`, and answers every other key as before.
   */
  lemma RemoveSpec<K, V>(es: seq<Entry<K, V>>, k: K)
    ensures DistinctKeys(es) ==>
      var r := Remove(es, k);
      && DistinctKeys(r)
      && k !in Keys(r)
      && |r| == (if k in Keys(es) then |es| - 1 else |es|)
      && forall k' :: k' != k ==> Lookup(r, k') == Lookup(es, k')
  {
    if DistinctKeys(es) {
      var r := Remove(es, k);
      match IndexOf(es, k)
      case None =>
      case Some(i) =>
        assert r == es[..i] + es[i + 1..];
        assert forall j :: 0 <= j < |r| ==> r[j] == es[if j < i then j else j + 1];
        forall k' | k' != k
          ensures Lookup(r, k') == Lookup(es, k')
        {
          if k' in Keys(es) {
            var j := IndexOf(es, k').value;
            assert j != i;
            var j' := if j < i then j else j - 1;
            assert r[j'] == es[j];
            assert k' in Keys(r) by { assert Keys(r)[j'] == k'; }
          }
        }
    }
  }

  /**
   * Assigning and then moving to the end, as `OrderedDict` does on an
   * update, puts the new entry last and otherwise equals removing `k`.
   */
  lemma AssignMoveToEnd<K, V>(es: seq<Entry<K, V>>, k: K, v: V)
    requires DistinctKeys(es)
    ensures MoveToEnd(Assign(es, k, v), k) == Remove(es, k) + [Entry(k, v)]
  {
    var a := Assign(es, k, v);
    match IndexOf(es, k)
    case None =>
      assert Keys(a)[|es|] == k;
      IndexOfUnique(a, |es|);
      assert a[..|es|] == es;
    case Some(i) =>
      assert Keys(a)[i] == k;
      assert DistinctKeys(a);
      IndexOfUnique(a, i);
      assert a[..i] == es[..i];
      assert a[i + 1..] == es[i + 1..];
  }

  /** Appending a fresh key to a well-formed order keeps it well formed. */
  lemma AppendFresh<K, V>(es: seq<Entry<K, V>>, e: Entry<K, V>)
    requires DistinctKeys(es) && e.key !in Keys(es)
    ensures DistinctKeys(es + [e])
    ensures Keys(es + [e]) == Keys(es) + [e.key]
  {
    forall i | 0 <= i < |es|
      ensures es[i].key != e.key
    {
      assert Keys(es)[i] == es[i].key;
    }
  }

  /** Moving a present key to the end keeps the same entries under the same keys. */
  lemma MoveToEndSpec<K, V>(es: seq<Entry<K, V>>, k: K)
    requires k in Keys(es)
    ensures DistinctKeys(es) ==>
      var r := MoveToEnd(es, k);
      && DistinctKeys(r)
      && |r| == |es|
      && r[|r| - 1].key == k
      && forall k' :: Lookup(r, k') == Lookup(es, k')
  {
    if DistinctKeys(es) {
      var i := IndexOf(es, k).value;
      var rest := Remove(es, k);
      RemoveSpec(es, k);
      assert MoveToEnd(es, k) == rest + [es[i]];
      AppendFresh(rest, es[i]);
      var r := rest + [es[i]];
      forall k'
        ensures Lookup(r, k') == Lookup(es, k')
      {
        if k' == k {
          IndexOfUnique(r, |rest|);
        } else if k' in Keys(rest) {
          var j := IndexOf(rest, k').value;
          IndexOfUnique(r, j);
          IndexOfUnique(rest, j);
        }
      }
    }
  }

  /** Dropping the head of a well-formed order keeps it well formed. */
  lemma PopFirstSpec<K, V>(es: seq<Entry<K, V>>)
    requires DistinctKeys(es) && |es| > 0
    ensures DistinctKeys(PopFirst(es))
    ensures forall k :: k != es[0].key ==> Lookup(PopFirst(es), k) == Lookup(es, k)
    ensures es[0].key !in Keys(PopFirst(es))
  {
    var r := PopFirst(es);
    assert forall j :: 0 <= j < |r| ==> r[j] == es[j + 1];
    forall k | k != es[0].key
      ensures Lookup(r, k) == Lookup(es, k)
    {
      if k in Keys(es) {
        var j := IndexOf(es, k).value;
        assert j > 0;
        IndexOfUnique(r, j - 1);
      }
    }
  }

  /** Appending an entry does not change what other keys map to. */
  lemma LookupAppend<K, V>(es: seq<Entry<K, V>>, e: Entry<K, V>, k: K)
    requires DistinctKeys(es + [e]) && k != e.key
    ensures Lookup(es + [e], k) == Lookup(es, k)
  {
    var r := es + [e];
    if k in Keys(es) {
      var j := IndexOf(es, k).value;
      IndexOfUnique(r, j);
    }
  }
}

=== FILE: memo.dfy ===
/**
 * `functools.lru_cache(maxsize=capacity)` around a pure one-argument
 * function: a hit returns the stored value and refreshes its recency; a miss
 * computes the value, stores it as most recently used and, when that makes
 * the table exceed `capacity`, drops the least recently used entry.
 */
module Memo {
  import opened Wrappers
  import opened Lru

  datatype Memo<V> = Memo(capacity: nat, entries: seq<Entry<string, V>>)

  function Empty<V>(capacity: nat): (m: Memo<V>)
    ensures m.entries == [] && Valid(m)
  {
    Memo(capacity, [])
  }

  ghost predicate Valid<V>(m: Memo<V>)
  {
    DistinctKeys(m.entries) && |m.entries| <= m.capacity
  }

  /** Every stored value is what `f` computes for its key. */
  ghost predicate Agrees<V>(m: Memo<V>, f: string -> V)
  {
    forall i :: 0 <= i < |m.entries| ==> m.entries[i].value == f(m.entries[i].key)
  }

  /** The outcome of one call through the cache; `computed` says whether `f` ran. */
  datatype Resolved<V> = Resolved(value: V, memo: Memo<V>, computed: bool)

  /**
   * One call of the cached function on `key`: the stored value on a hit
   * (refreshing its recency), otherwise `f(key)`, stored as most recently
   * used, evicting the least recently used entry when over `capacity`.
   * The underlying function runs exactly when `key` is not cached.
   */
  function Resolve<V>(m: Memo<V>, key: string, f: string -> V): (r: Resolved<V>)
    ensures r.memo.capacity == m.capacity
    ensures r.computed <==> key !in Keys(m.entries)
    ensures r.computed ==> r.value == f(key)
    ensures |r.memo.entries| <= |m.entries| + 1
  {
    match IndexOf(m.entries, key)
    case Some(i) =>
      Resolved(m.entries[i].value, m.(entries := MoveToEnd(m.entries, key)), false)
    case None =>
      var v := f(key);
      var es := m.entries + [Entry(key, v)];
      Resolved(v, m.(entries := if |es| > m.capacity then PopFirst(es) else es), true)
  }

  /**
   * The answer is always `f(key)` as long as the table only ever stored
   * values of `f`, and the table keeps storing only values of `f`.
   */
  lemma ResolveAgrees<V>(m: Memo<V>, key: string, f: string -> V)
    requires Agrees(m, f)
    ensures Resolve(m, key, f).value == f(key) && Agrees(Resolve(m, key, f).memo, f)
  {
    if key in Keys(m.entries) {
      ResolveHit(m, key, f);
    } else {
      ResolveMiss(m, key, f);
    }
  }

  /** The table stays well formed: distinct keys, never more than `capacity` entries. */
  lemma ResolveValid<V>(m: Memo<V>, key: string, f: string -> V)
    requires Valid(m)
    ensures Valid(Resolve(m, key, f).memo)
  {
    if key in Keys(m.entries) {
      MoveToEndSpec(m.entries, key);
    } else {
      ResolveMiss(m, key, f);
    }
  }

  /** With room for one entry, the key is cached after the call. */
  lemma ResolveCachesKey<V>(m: Memo<V>, key: string, f: string -> V)
    requires Valid(m) && m.capacity >= 1
    ensures key in Keys(Resolve(m, key, f).memo.entries)
  {
    if key in Keys(m.entries) {
      MoveToEndSpec(m.entries, key);
      var es := MoveToEnd(m.entries, key);
      assert Keys(es)[|es| - 1] == key;
    } else {
      ResolveMiss(m, key, f);
    }
  }

  /** A hit keeps the set of cached keys. */
  lemma ResolveHitKeys<V>(m: Memo<V>, key: string, f: string -> V)
    requires Valid(m) && key in Keys(m.entries)
    ensures forall k :: k in Keys(Resolve(m, key, f).memo.entries) <==> k in Keys(m.entries)
  {
    ResolveHit(m, key, f);
  }

  /** A call with room to spare caches exactly the old keys and `key`. */
  lemma ResolveRoomKeys<V>(m: Memo<V>, key: string, f: string -> V)
    requires Valid(m) && |m.entries| < m.capacity
    ensures forall k :: k in Keys(Resolve(m, key, f).memo.entries) <==> k in Keys(m.entries) || k == key
  {
    if key in Keys(m.entries) {
      ResolveHit(m, key, f);
    } else {
      ResolveMiss(m, key, f);
    }
  }

  /** A hit answers with the value stored for the key. */
  lemma ResolveHitValue<V>(m: Memo<V>, key: string, f: string -> V)
    requires Valid(m) && key in Keys(m.entries)
    ensures Some(Resolve(m, key, f).value) == Lookup(m.entries, key)
  {
  }

  /** With room for one entry, the key resolved is the most recently used afterwards. */
  lemma ResolveMakesRecent<V>(m: Memo<V>, key: string, f: string -> V)
    requires Valid(m) && m.capacity >= 1
    ensures var es := Resolve(m, key, f).memo.entries;
      |es| > 0 && es[|es| - 1].key == key
  {
    if key in Keys(m.entries) {
      MoveToEndSpec(m.entries, key);
    }
  }

  /** A miss on a full table drops the least recently used entry and appends the new one. */
  lemma ResolveEvictsLru<V>(m: Memo<V>, key: string, f: string -> V)
    requires key !in Keys(m.entries)
    requires |m.entries| == m.capacity >= 1
    ensures Resolve(m, key, f).memo.entries == m.entries[1..] + [Entry(key, f(key))]
  {
  }

  /** The promises above as one implication-style statement, for callers that cannot branch on them. */
  lemma ResolveSpec<V>(m: Memo<V>, key: string, f: string -> V)
    ensures var r := Resolve(m, key, f);
      && (Agrees(m, f) ==> r.value == f(key) && Agrees(r.memo, f))
      && (Valid(m) ==> Valid(r.memo))
  {
    if Agrees(m, f) {
      ResolveAgrees(m, key, f);
    }
    if Valid(m) {
      ResolveValid(m, key, f);
    }
  }

  lemma ResolveHit<V>(m: Memo<V>, key: string, f: string -> V)
    requires key in Keys(m.entries)
    ensures var i := IndexOf(m.entries, key).value;
      var es := MoveToEnd(m.entries, key);
      && (Agrees(m, f) ==> m.entries[i].value == f(key) && Agrees(m.(entries := es), f))
      && (Valid(m) ==> forall k :: k in Keys(es) <==> k in Keys(m.entries))
  {
    var i := IndexOf(m.entries, key).value;
    var es := MoveToEnd(m.entries, key);
    assert forall j :: 0 <= j < |es| ==> es[j] in m.entries;
    if Valid(m) {
      MoveToEndSpec(m.entries, key);
      forall k
        ensures k in Keys(es) <==> k in Keys(m.entries)
      {
        assert Lookup(es, k) == Lookup(m.entries, k);
      }
    }
  }

  lemma ResolveMiss<V>(m: Memo<V>, key: string, f: string -> V)
    requires key !in Keys(m.entries)
    ensures var es := m.entries + [Entry(key, f(key))];
      var es' := if |es| > m.capacity then PopFirst(es) else es;
      && (Agrees(m, f) ==> Agrees(m.(entries := es'), f))
      && (Valid(m) ==> DistinctKeys(es') && |es'| <= m.capacity)
      && (Valid(m) && m.capacity >= 1 ==> key in Keys(es'))
      && (Valid(m) && |m.entries| < m.capacity ==>
            forall k :: k in Keys(es') <==> k in Keys(m.entries) || k == key)
  {
    var es := m.entries + [Entry(key, f(key))];
    if Valid(m) {
      AppendFresh(m.entries, Entry(key, f(key)));
      PopFirstSpec(es);
      if m.capacity >= 1 && |es| > m.capacity {
        assert Keys(es[1..])[|es| - 2] == key;
      }
    }
  }
}

=== FILE: pipeline.dfy ===
/**
 * `RAGPipeline.answer_question_stream`: one request through the response
 * cache, hybrid search and answer generation. The request yields a
 * sequence of answer units and may end in an exception; the response
 * cache is threaded through as a value. Retrieval and generation are
 * parameters, and so are the two clock readings (at the cache lookup and
 * at the cache write).
 */
module Pipeline {
  import opened Wrappers
  import opened Text
  import opened Query
  import opened Ranking
  import Lru
  import RC = ResponseCache

  /** One yielded unit: answer text, the provenance of every passage used, and their hybrid scores. */
  datatype Answer = Answer(text: string, metadata: seq<Metadata>, scores: seq<real>)

  /**
   * What the answer generator does for one prompt: the chunks it yields,
   * then possibly an exception.
   */
  datatype Generation = Generation(chunks: seq<string>, failure: Option<string>)

  /** The text generator's own promise: one chunk on success, no chunk on failure. */
  predicate SingleShot(g: Generation)
  {
    if g.failure.None? then |g.chunks| == 1 else g.chunks == []
  }

  /** The collaborators of a request: the query analyser, the vector index, the generator. */
  datatype Env = Env(analyze: Analyzer, index: VectorIndex, generate: (string, string) -> Generation)

  /** The outcome of one request: the units yielded, the exception it ended with if any, and the cache after it. */
  datatype Run = Run(units: seq<Answer>, error: Option<string>, cache: RC.Cache<Answer>)

  const NoResultsText: string := "No relevant information found."
  const PassageSeparator: string := "\n\n"

  /** The answer given when retrieval finds nothing. */
  const Fallback: Answer := Answer(NoResultsText, [], [])

  function Contents(results: seq<SearchResult>): (r: seq<string>)
    ensures |r| == |results| && forall i :: 0 <= i < |results| ==> r[i] == results[i].content
  {
    seq(|results|, i requires 0 <= i < |results| => results[i].content)
  }

  function Provenance(results: seq<SearchResult>): (r: seq<Metadata>)
    ensures |r| == |results| && forall i :: 0 <= i < |results| ==> r[i] == results[i].metadata
  {
    seq(|results|, i requires 0 <= i < |results| => results[i].metadata)
  }

  /** The passages handed to the generator, in rank order, separated by blank lines. */
  function Context(results: seq<SearchResult>): string
  {
    Join(PassageSeparator, Contents(results))
  }

  /** Every chunk tagged with the same provenance and score lists. */
  function Tag(chunks: seq<string>, metadata: seq<Metadata>, scores: seq<real>): (r: seq<Answer>)
    ensures |r| == |chunks|
    ensures forall i :: 0 <= i < |r| ==> r[i] == Answer(chunks[i], metadata, scores)
  {
    seq(|chunks|, i requires 0 <= i < |chunks| => Answer(chunks[i], metadata, scores))
  }

  function UnitTexts(units: seq<Answer>): (r: seq<string>)
    ensures |r| == |units| && forall i :: 0 <= i < |units| ==> r[i] == units[i].text
  {
    seq(|units|, i requires 0 <= i < |units| => units[i].text)
  }

  /** The cache after the lookup step: consulted (and possibly pruned) only when caching is on. */
  function Looked(cache: RC.Cache<Answer>, query: string, useCache: bool, now: real): RC.Cache<Answer>
  {
    if useCache then RC.Get(cache, query, now).cache else cache
  }

  /** Stores `a` when caching is on. */
  function Store(cache: RC.Cache<Answer>, query: string, a: Answer, useCache: bool, now: real): RC.Cache<Answer>
  {
    if useCache then RC.Put(cache, query, a, now) else cache
  }

  /**
   * The uncached part of a request: what it yields, the exception it ends
   * with if any, and the answer to cache if it completes.
   */
  datatype Reply = Reply(units: seq<Answer>, error: Option<string>, stored: Option<Answer>)

  /**
   * Search, then either the fallback answer (no results) or generation over
   * the results, each chunk yielded with the results' provenance and
   * scores. An exception from search or generation ends the reply with
   * nothing to store; a completed reply stores the concatenation of what it
   * yielded, under the same provenance and scores.
   */
  function Respond(query: string, k: nat, env: Env): (r: Reply)
    ensures r.error.None? <==> r.stored.Some?
    ensures r.stored.Some? ==> r.stored.value.text == Join("", UnitTexts(r.units))
    ensures r.stored.Some? ==> forall u :: u in r.units ==>
      u.metadata == r.stored.value.metadata && u.scores == r.stored.value.scores
  {
    match HybridSearch(query, k, env.analyze, env.index)
    case SearchFailed(msg) => Reply([], Some(msg), None)
    case Ranked(results) =>
      if |results| == 0 then
        assert UnitTexts([Fallback]) == [NoResultsText];
        Reply([Fallback], None, Some(Fallback))
      else
        Generate(query, results, env.generate)
  }

  /**
   * Generation over non-empty results: every chunk is yielded with the
   * results' provenance and scores; an exception ends the reply with
   * nothing to store, and a completed reply stores the concatenated chunks.
   */
  function Generate(query: string, results: seq<SearchResult>, generate: (string, string) -> Generation): (r: Reply)
    ensures r.error.None? <==> r.stored.Some?
    ensures r.stored.Some? ==> r.stored.value.text == Join("", UnitTexts(r.units))
    ensures r.stored.Some? ==> forall u :: u in r.units ==>
      u.metadata == r.stored.value.metadata && u.scores == r.stored.value.scores
  {
    var metadata := Provenance(results);
    var scores := HybridScores(results);
    var g := generate(Context(results), query);
    var units := Tag(g.chunks, metadata, scores);
    assert UnitTexts(units) == g.chunks;
    match g.failure
    case Some(msg) => Reply(units, Some(msg), None)
    case None => Reply(units, None, Some(Answer(Join("", g.chunks), metadata, scores)))
  }

  /**
   * `answer_question_stream(query, k, use_cache)`. A cache hit is yielded
   * on its own. Otherwise the reply is produced and, only once it has
   * completed and only when caching is on, its answer is stored.
   */
  function AnswerStream(cache: RC.Cache<Answer>, query: string, k: nat, useCache: bool, env: Env,
                        atLookup: real, atStore: real): (r: Run)
    ensures r.cache.capacity == cache.capacity && r.cache.ttl == cache.ttl
    ensures RC.Valid(cache) ==> RC.Valid(r.cache)
  {
    var lookup := RC.Get(cache, query, atLookup);
    if useCache && lookup.response.Some? then
      Run([lookup.response.value], None, lookup.cache)
    else
      var looked := Looked(cache, query, useCache, atLookup);
      var reply := Respond(query, k, env);
      match reply.stored
      case None => Run(reply.units, reply.error, looked)
      case Some(a) => Run(reply.units, reply.error, Store(looked, query, a, useCache, atStore))
  }

  /**
   * An index failure ends the request with the index's exception: nothing
   * is yielded, nothing is stored, and the cache is as the lookup left it.
   */
  lemma SearchFailurePropagates(cache: RC.Cache<Answer>, query: string, k: nat, useCache: bool, env: Env,
                                atLookup: real, atStore: real, msg: string)
    requires !(useCache && RC.Get(cache, query, atLookup).response.Some?)
    requires env.index(Preprocess(query, env.analyze).enhanced, Oversampling * k) == IndexFailed(msg)
    ensures AnswerStream(cache, query, k, useCache, env, atLookup, atStore)
      == Run([], Some(msg), Looked(cache, query, useCache, atLookup))
  {
  }

  /** A non-empty ranking is exactly what the generator is given. */
  lemma RespondGenerates(query: string, k: nat, env: Env, results: seq<SearchResult>)
    requires HybridSearch(query, k, env.analyze, env.index) == Ranked(results)
    requires |results| > 0
    ensures Respond(query, k, env) == Generate(query, results, env.generate)
  {
  }

  /**
   * A cache hit yields exactly the cached answer, once, and does no search
   * or generation: the outcome is the same whatever the collaborators do.
   */
  lemma CacheHitShortCircuits(cache: RC.Cache<Answer>, query: string, k: nat, env: Env, other: Env,
                              atLookup: real, atStore: real, a: Answer)
    requires RC.Get(cache, query, atLookup).response == Some(a)
    ensures var r := AnswerStream(cache, query, k, true, env, atLookup, atStore);
      && r == Run([a], None, RC.Get(cache, query, atLookup).cache)
      && r == AnswerStream(cache, query, k, true, other, atLookup, atStore)
  {
  }

  /**
   * With caching off the cache is neither read nor written: it comes back
   * unchanged, and what is yielded does not depend on its contents.
   */
  lemma NoCacheIsolated(cache: RC.Cache<Answer>, other: RC.Cache<Answer>, query: string, k: nat, env: Env,
                        atLookup: real, atStore: real)
    ensures var r := AnswerStream(cache, query, k, false, env, atLookup, atStore);
      var s := AnswerStream(other, query, k, false, env, atLookup, atStore);
      r.cache == cache && r.units == s.units && r.error == s.error
  {
  }

  /** No search results: the single fallback unit, cached exactly when caching is on. */
  lemma NoResultsFallback(cache: RC.Cache<Answer>, query: string, k: nat, useCache: bool, env: Env,
                          atLookup: real, atStore: real)
    requires !(useCache && RC.Get(cache, query, atLookup).response.Some?)
    requires HybridSearch(query, k, env.analyze, env.index) == Ranked([])
    ensures var r := AnswerStream(cache, query, k, useCache, env, atLookup, atStore);
      && r.units == [Answer("No relevant information found.", [], [])]
      && r.error == None
      && r.cache == if useCache then RC.Put(RC.Get(cache, query, atLookup).cache, query, Fallback, atStore) else cache
  {
  }

  /**
   * Generation over non-empty results: the generator sees the passages in
   * rank order joined by blank lines, every unit is one generated chunk in
   * order, and the reply ends with the generator's exception if it raised
   * one.
   */
  lemma GenerationPath(query: string, results: seq<SearchResult>, generate: (string, string) -> Generation)
    requires |results| > 0
    ensures var g := generate(Join("\n\n", Contents(results)), query);
      var r := Generate(query, results, generate);
      UnitTexts(r.units) == g.chunks && r.error == g.failure
  {
    var g := generate(Context(results), query);
    assert Generate(query, results, generate).units == Tag(g.chunks, Provenance(results), HybridScores(results));
  }

  /** Every unit of a generated reply carries the results' provenance and hybrid scores, in rank order. */
  lemma GenerationProvenance(query: string, results: seq<SearchResult>, generate: (string, string) -> Generation, i: nat)
    requires |results| > 0
    requires i < |Generate(query, results, generate).units|
    ensures var u := Generate(query, results, generate).units[i];
      && |u.metadata| == |results| && |u.scores| == |results|
      && forall j :: 0 <= j < |results| ==> u.metadata[j] == results[j].metadata && u.scores[j] == results[j].hybridScore
  {
    var g := generate(Context(results), query);
    assert Generate(query, results, generate).units == Tag(g.chunks, Provenance(results), HybridScores(results));
  }

  /**
   * The cache is written only by a completed request with caching on, and
   * then holds, as its most recent entry, the reply's answer stamped with
   * the time of the write. A failed request leaves the cache as the lookup
   * left it.
   */
  lemma StoreOnlyOnCompletion(cache: RC.Cache<Answer>, query: string, k: nat, useCache: bool, env: Env,
                              atLookup: real, atStore: real)
    requires RC.Valid(cache)
    requires !(useCache && RC.Get(cache, query, atLookup).response.Some?)
    ensures var r := AnswerStream(cache, query, k, useCache, env, atLookup, atStore);
      var reply := Respond(query, k, env);
      && r.units == reply.units && r.error == reply.error
      && (r.error.Some? || !useCache ==> r.cache == Looked(cache, query, useCache, atLookup))
      && (r.error.None? && useCache && cache.capacity >= 1 ==>
            r.cache.entries[|r.cache.entries| - 1] == Lru.Entry(query, RC.Stamped(atStore, reply.stored.value)))
  {
  }

  /**
   * With the text generator's contract, a successful generation yields
   * exactly one unit, and a failed one yields none.
   */
  lemma SingleShotAnswer(query: string, results: seq<SearchResult>, generate: (string, string) -> Generation)
    requires |results| > 0
    requires SingleShot(generate(Join("\n\n", Contents(results)), query))
    ensures var r := Generate(query, results, generate);
      && (r.error.None? ==> |r.units| == 1 && r.stored == Some(r.units[0]))
      && (r.error.Some? ==> r.units == [])
  {
    var g := generate(Context(results), query);
    if g.failure.None? {
      assert Join("", g.chunks) == g.chunks[0];
    }
  }

  /**
   * Asking again within the time-to-live replays the stored answer without
   * search or generation: one unit whose text is the concatenation of what
   * the first request streamed, with the same provenance and scores.
   */
  lemma RepeatWithinTtl(cache: RC.Cache<Answer>, query: string, k: nat, env: Env, env2: Env,
                        atLookup: real, atStore: real, again: real, atStore2: real)
    requires RC.Valid(cache) && cache.capacity >= 1
    requires AnswerStream(cache, query, k, true, env, atLookup, atStore).error.None?
    requires RC.Get(cache, query, atLookup).response.None?
    requires again - atStore <= cache.ttl as real
    ensures var r1 := AnswerStream(cache, query, k, true, env, atLookup, atStore);
      var r2 := AnswerStream(r1.cache, query, k, true, env2, again, atStore2);
      && r2.error.None? && |r2.units| == 1
      && r2.units[0].text == Join("", UnitTexts(r1.units))
      && forall u :: u in r1.units ==> u.metadata == r2.units[0].metadata && u.scores == r2.units[0].scores
  {
    var looked := RC.Get(cache, query, atLookup).cache;
    var reply := Respond(query, k, env);
    var r1 := AnswerStream(cache, query, k, true, env, atLookup, atStore);
    assert r1.cache == RC.Put(looked, query, reply.stored.value, atStore);
    RC.PutThenGetFresh(looked, query, reply.stored.value, atStore, again);
  }
}

=== FILE: query.dfy ===
/**
 * Query preprocessing and keyword scoring (`RAGPipeline.preprocess_query`
 * and `RAGPipeline.calculate_keyword_score`). spaCy's analysis is an
 * abstract function from text to tokens; the serialized analysis handed
 * from one to the other is the token list itself.
 */
module Query {
  import opened Text

  /** One token of the linguistic analysis: `text`, `pos_`, `ent_type_`, `is_stop`, `is_punct`. */
  datatype Token = Token(text: string, pos: string, entType: string, isStop: bool, isPunct: bool)

  /** The linguistic analyzer (`self.nlp`), deterministic for identical input. */
  type Analyzer = string -> seq<Token>

  /** The part-of-speech tags that make a token content-bearing. */
  const ContentTags: set<string> := {"NOUN", "VERB", "PROPN"}

  /** A token carrying a named-entity type or a content part of speech. */
  predicate IsKeyword(t: Token)
  {
    t.entType != "" || t.pos in ContentTags
  }

  /** The tokens `preprocess_query` keeps: keywords, and anything neither a stop word nor punctuation. */
  predicate IsImportant(t: Token)
  {
    IsKeyword(t) || !(t.isStop || t.isPunct)
  }

  /**
   * The important tokens of `ts`, in their original order: every token
   * kept is important, and each important token is kept as many times as
   * it occurs.
   */
  function Important(ts: seq<Token>): (r: seq<Token>)
    ensures |r| <= |ts|
    ensures forall i :: 0 <= i < |r| ==> IsImportant(r[i])
    ensures forall t :: multiset(r)[t] == if IsImportant(t) then multiset(ts)[t] else 0
  {
    if |ts| == 0 then []
    else
      var rest := Important(ts[1..]);
      assert ts == [ts[0]] + ts[1..];
      if IsImportant(ts[0]) then [ts[0]] + rest else rest
  }

  /** A single token is kept exactly when it is important. */
  lemma ImportantSingle(t: Token)
    ensures Important([t]) == if IsImportant(t) then [t] else []
  {
    assert [t][1..] == [];
  }

  /**
   * Keeping distributes over concatenation, so the kept tokens come in
   * their analysis order: together with `ImportantSingle` this fixes the
   * result token by token.
   */
  lemma {:induction false} ImportantAppend(a: seq<Token>, b: seq<Token>)
    ensures Important(a + b) == Important(a) + Important(b)
    decreases |a|
  {
    if |a| == 0 {
      assert a + b == b;
    } else {
      assert (a + b)[0] == a[0];
      assert (a + b)[1..] == a[1..] + b;
      ImportantAppend(a[1..], b);
    }
  }

  function Texts(ts: seq<Token>): (r: seq<string>)
    ensures |r| == |ts| && forall i :: 0 <= i < |ts| ==> r[i] == ts[i].text
  {
    seq(|ts|, i requires 0 <= i < |ts| => ts[i].text)
  }

  /** What `preprocess_query` returns: the search string and the analysis it came from. */
  datatype Processed = Processed(enhanced: string, annotation: seq<Token>)

  /**
   * `preprocess_query(query)`: the texts of the important tokens joined by
   * single spaces, or the stripped query when no token is important,
   * together with the full analysis for later keyword scoring.
   */
  function Preprocess(query: string, analyze: Analyzer): (r: Processed)
    ensures r.annotation == analyze(query)
    ensures (forall i :: 0 <= i < |r.annotation| ==> !IsImportant(r.annotation[i])) ==>
      r.enhanced == Strip(query)
  {
    var tokens := analyze(query);
    var important := Important(tokens);
    assert |important| == 0 ==> forall i :: 0 <= i < |tokens| ==> !IsImportant(tokens[i]) by {
      if exists i :: 0 <= i < |tokens| && IsImportant(tokens[i]) {
        var i :| 0 <= i < |tokens| && IsImportant(tokens[i]);
        assert multiset(tokens)[tokens[i]] > 0;
      }
    }
    var enhanced := if |important| > 0 then Join(" ", Texts(important)) else Strip(query);
    Processed(enhanced, tokens)
  }

  /**
   * With a kept token, the search string is the kept texts joined by single
   * spaces, and splitting it on spaces gives them back in order (as long as
   * no such text holds a space); the fallback string has no surrounding
   * whitespace.
   */
  lemma PreprocessSpec(query: string, analyze: Analyzer)
    ensures var kept := Important(analyze(query));
      var r := Preprocess(query, analyze);
      && (|kept| > 0 ==> r.enhanced == Join(" ", Texts(kept)))
      && (|kept| > 0 && (forall i :: 0 <= i < |kept| ==> ' ' !in kept[i].text) ==>
            Split(' ', r.enhanced) == Texts(kept))
      && (|kept| == 0 ==> r.enhanced == Strip(query) && Strip(r.enhanced) == r.enhanced)
  {
    var kept := Important(analyze(query));
    if |kept| > 0 && (forall i :: 0 <= i < |kept| ==> ' ' !in kept[i].text) {
      SplitJoin(' ', Texts(kept));
    }
    StripIdempotent(query);
  }

  /** The query-token set of `calculate_keyword_score`: lower-cased keyword texts. */
  function QueryTerms(annotation: seq<Token>): set<string>
  {
    set t | t in annotation && IsKeyword(t) :: Lower(t.text)
  }

  /**
   * The scoring terms are drawn from the tokens `preprocess_query` keeps:
   * every token that contributes a query term is an important token.
   */
  lemma KeywordTokensKept(annotation: seq<Token>)
    ensures forall t :: t in annotation && IsKeyword(t) ==> t in Important(annotation)
  {
    var kept := Important(annotation);
    forall t | t in annotation && IsKeyword(t)
      ensures t in kept
    {
      assert multiset(kept)[t] == multiset(annotation)[t] > 0;
    }
  }

  /** How many of `words` are in `terms`, counting repetitions. */
  function Matches(words: seq<string>, terms: set<string>): (n: nat)
    ensures n <= |words|
    ensures n == 0 <==> forall i :: 0 <= i < |words| ==> words[i] !in terms
    ensures n == |words| <==> forall i :: 0 <= i < |words| ==> words[i] in terms
  {
    if |words| == 0 then 0
    else (if words[0] in terms then 1 else 0) + Matches(words[1..], terms)
  }

  /** Counting matches distributes over concatenation. */
  lemma {:induction false} MatchesAppend(a: seq<string>, b: seq<string>, terms: set<string>)
    ensures Matches(a + b, terms) == Matches(a, terms) + Matches(b, terms)
    decreases |a|
  {
    if |a| == 0 {
      assert a + b == b;
    } else {
      assert (a + b)[0] == a[0];
      assert (a + b)[1..] == a[1..] + b;
      MatchesAppend(a[1..], b, terms);
    }
  }

  /**
   * `calculate_keyword_score(text, annotation)`: the number of tokens of
   * the lower-cased candidate text that are query terms (with repetition),
   * divided by the number of distinct query terms; 0 with no query terms.
   */
  function KeywordScore(content: string, annotation: seq<Token>, analyze: Analyzer): (r: real)
    ensures r >= 0.0
    ensures QueryTerms(annotation) == {} ==> r == 0.0
  {
    var terms := QueryTerms(annotation);
    if |terms| == 0 then 0.0
    else Matches(Texts(analyze(Lower(content))), terms) as real / |terms| as real
  }

  /**
   * The score is zero exactly when there are no query terms or no token of
   * the candidate is one, and at most the candidate's token count over the
   * number of query terms.
   */
  lemma KeywordScoreBounds(content: string, annotation: seq<Token>, analyze: Analyzer)
    ensures var words := Texts(analyze(Lower(content)));
      var terms := QueryTerms(annotation);
      var r := KeywordScore(content, annotation, analyze);
      && (r == 0.0 <==> terms == {} || forall i :: 0 <= i < |words| ==> words[i] !in terms)
      && (terms != {} ==> r <= |words| as real / |terms| as real)
  {
    var words := Texts(analyze(Lower(content)));
    var terms := QueryTerms(annotation);
    if terms != {} {
      DivideMonotone(Matches(words, terms) as real, |words| as real, |terms| as real);
    }
  }

  /** Dividing by a positive number keeps the order of non-negative numbers. */
  lemma DivideMonotone(a: real, b: real, d: real)
    requires 0.0 <= a <= b && d > 0.0
    ensures a / d <= b / d
  {
    assert b / d - a / d == (b - a) / d;
  }

  /** The score is not bounded by one: a repeated query term counts each time. */
  lemma KeywordScoreCanExceedOne()
    ensures var noun := Token("paint", "NOUN", "", false, false);
      KeywordScore("paint paint", [noun], (s: string) => [noun, noun]) == 2.0
  {
    var noun := Token("paint", "NOUN", "", false, false);
    assert QueryTerms([noun]) == {"paint"} by {
      assert Lower("paint") == "paint";
    }
    assert Texts([noun, noun]) == ["paint", "paint"];
  }
}

=== FILE: ranking.dfy ===
/**
 * `RAGPipeline.hybrid_search`: fetch `3·k` nearest candidates for the
 * preprocessed query, fuse vector similarity with keyword overlap, and keep
 * the `k` best by fused score as `heapq.nlargest` does (descending, ties in
 * original candidate order). Scores are exact reals.
 */
module Ranking {
  import opened Wrappers
  import opened Query

  /** Provenance fields of a stored passage, opaque to the pipeline. */
  datatype Metadata = Metadata(fields: map<string, string>)

  /** One reply row of the vector index: passage, provenance and distance. */
  datatype Candidate = Candidate(content: string, metadata: Metadata, distance: real)

  /** `SearchResult`. */
  datatype SearchResult = SearchResult(content: string, metadata: Metadata, vectorScore: real, hybridScore: real)

  /** The vector index's answer to `similarity_search_with_score`; it may raise. */
  datatype IndexReply = Found(candidates: seq<Candidate>) | IndexFailed(message: string)

  /** `similarity_search_with_score(text, k=limit)`. */
  type VectorIndex = (string, nat) -> IndexReply

  datatype SearchOutcome = Ranked(results: seq<SearchResult>) | SearchFailed(message: string)

  const VectorWeight: real := 0.7
  const KeywordWeight: real := 0.3
  const Oversampling: nat := 3
  const DefaultTopK: nat := 3

  /** The similarity of a distance, unclamped: distances above 1 give negative similarity. */
  function Similarity(distance: real): real
  {
    1.0 - distance
  }

  function Fuse(similarity: real, keyword: real): real
  {
    VectorWeight * similarity + KeywordWeight * keyword
  }

  /** Scores one candidate given its keyword score. */
  function ScoreCandidate(c: Candidate, keyword: real): SearchResult
  {
    var sim := Similarity(c.distance);
    SearchResult(c.content, c.metadata, sim, Fuse(sim, keyword))
  }

  /**
   * With equal keyword scores the fused order is the vector order: the
   * closer candidate has the strictly higher hybrid score.
   */
  lemma FusionKeepsVectorOrder(a: Candidate, b: Candidate, keyword: real)
    ensures ScoreCandidate(a, keyword).hybridScore > ScoreCandidate(b, keyword).hybridScore
        <==> a.distance < b.distance
  {
  }

  /**
   * The fused score grows as the distance shrinks and as the keyword score
   * grows: a closer candidate with at least the same keyword score ranks
   * strictly higher, and at equal distance the higher keyword score wins.
   */
  lemma FusionMonotone(a: Candidate, b: Candidate, ka: real, kb: real)
    ensures a.distance < b.distance && ka >= kb ==>
      ScoreCandidate(a, ka).hybridScore > ScoreCandidate(b, kb).hybridScore
    ensures a.distance == b.distance ==>
      (ScoreCandidate(a, ka).hybridScore > ScoreCandidate(b, kb).hybridScore <==> ka > kb)
  {
  }

  // ---------------------------------------------------------------------
  // Stable top-k selection over candidate positions.

  /** Position `i` ranks ahead of `j`: a higher score, or an equal score and an earlier position. */
  predicate Before(s: seq<real>, i: nat, j: nat)
    requires i < |s| && j < |s|
  {
    s[i] > s[j] || (s[i] == s[j] && i < j)
  }

  /** `Before` is a strict total order on positions. */
  lemma BeforeOrder(s: seq<real>, i: nat, j: nat, l: nat)
    requires i < |s| && j < |s| && l < |s|
    ensures !Before(s, i, i)
    ensures i != j ==> Before(s, i, j) || Before(s, j, i)
    ensures Before(s, i, j) ==> !Before(s, j, i)
    ensures Before(s, i, j) && Before(s, j, l) ==> Before(s, i, l)
  {
  }

  predicate InRange(s: seq<real>, pool: set<nat>)
  {
    forall x :: x in pool ==> x < |s|
  }

  /** The best position of `pool` below `n`, scanning upward so that ties keep the earliest. */
  function BestBelow(s: seq<real>, pool: set<nat>, n: nat): (b: Option<nat>)
    requires InRange(s, pool)
    ensures b.None? <==> forall q :: q in pool ==> q >= n
    ensures b.Some? ==> b.value in pool && b.value < n
    ensures b.Some? ==> forall q :: q in pool && q < n && q != b.value ==> Before(s, b.value, q)
  {
    if n == 0 then None
    else
      var b := BestBelow(s, pool, n - 1);
      if n - 1 in pool && (b.None? || Before(s, n - 1, b.value)) then Some(n - 1) else b
  }

  function Best(s: seq<real>, pool: set<nat>): (b: nat)
    requires InRange(s, pool) && pool != {}
    ensures b in pool
    ensures forall q :: q in pool && q != b ==> Before(s, b, q)
  {
    var o := BestBelow(s, pool, |s|);
    o.value
  }

  function Select(s: seq<real>, pool: set<nat>, k: nat): (r: seq<nat>)
    requires InRange(s, pool)
    ensures |r| == if k < |pool| then k else |pool|
    ensures forall i :: 0 <= i < |r| ==> r[i] in pool
    decreases k
  {
    if k == 0 || pool == {} then []
    else
      var b := Best(s, pool);
      var rest := Select(s, pool - {b}, k - 1);
      assert forall i :: 1 <= i < |rest| + 1 ==> ([b] + rest)[i] == rest[i - 1];
      [b] + rest
  }

  /** `r` lists positions of `s` in ranking order. */
  ghost predicate InOrder(s: seq<real>, r: seq<nat>)
  {
    && (forall i :: 0 <= i < |r| ==> r[i] < |s|)
    && (forall i, j :: 0 <= i < j < |r| ==> Before(s, r[i], r[j]))
  }

  /** No position of `pool` left out of `r` ranks ahead of one in `r`. */
  ghost predicate Dominates(s: seq<real>, pool: set<nat>, r: seq<nat>)
  {
    && (forall i :: 0 <= i < |r| ==> r[i] < |s|)
    && InRange(s, pool)
    && (forall i, q :: 0 <= i < |r| && q in pool && q !in r ==> Before(s, r[i], q))
  }

  lemma {:induction false} SelectOrdered(s: seq<real>, pool: set<nat>, k: nat)
    requires InRange(s, pool)
    ensures InOrder(s, Select(s, pool, k))
    decreases k
  {
    if k > 0 && pool != {} {
      var b := Best(s, pool);
      var rest := Select(s, pool - {b}, k - 1);
      SelectOrdered(s, pool - {b}, k - 1);
      var r := Select(s, pool, k);
      assert r == [b] + rest;
      forall i, j | 0 <= i < j < |r|
        ensures Before(s, r[i], r[j])
      {
        assert r[j] == rest[j - 1] && rest[j - 1] in pool - {b};
        if i > 0 {
          assert r[i] == rest[i - 1];
          assert Before(s, rest[i - 1], rest[j - 1]);
        } else {
          assert r[i] == b;
          assert Before(s, b, rest[j - 1]);
        }
      }
    }
  }

  lemma {:induction false} SelectClosed(s: seq<real>, pool: set<nat>, k: nat)
    requires InRange(s, pool)
    ensures Dominates(s, pool, Select(s, pool, k))
    decreases k
  {
    if k > 0 && pool != {} {
      var b := Best(s, pool);
      var rest := Select(s, pool - {b}, k - 1);
      SelectClosed(s, pool - {b}, k - 1);
      var r := Select(s, pool, k);
      assert r == [b] + rest;
      forall i, q | 0 <= i < |r| && q in pool && q !in r
        ensures Before(s, r[i], q)
      {
        assert q != r[0];
        assert q !in rest && q in pool - {b};
        if i > 0 {
          assert r[i] == rest[i - 1];
          assert Before(s, rest[i - 1], q);
        } else {
          assert Before(s, b, q);
        }
      }
    }
  }

  /** The positions of a sequence of length `n`. */
  function Positions(n: nat): (ps: set<nat>)
    ensures forall q: nat :: q in ps <==> q < n
    ensures |ps| == n
  {
    if n == 0 then {} else
      var ps := Positions(n - 1);
      assert n - 1 !in ps;
      ps + {n - 1}
  }

  /**
   * What a stable descending top-k returns: `min(k, |s|)` positions of `s`
   * in ranking order, none left out ranking ahead of one kept.
   */
  ghost predicate IsTopK(s: seq<real>, k: nat, r: seq<nat>)
  {
    && |r| == (if k < |s| then k else |s|)
    && InOrder(s, r)
    && (forall i, q :: 0 <= i < |r| && 0 <= q < |s| && q !in r ==> Before(s, r[i], q))
  }

  /** `heapq.nlargest(k, positions, key=score)`. */
  function TopK(s: seq<real>, k: nat): (r: seq<nat>)
    ensures |r| == (if k < |s| then k else |s|)
    ensures forall i :: 0 <= i < |r| ==> r[i] < |s|
  {
    Select(s, Positions(|s|), k)
  }

  /** `TopK` meets the top-k characterisation. */
  lemma TopKSpec(s: seq<real>, k: nat)
    ensures IsTopK(s, k, TopK(s, k))
  {
    SelectOrdered(s, Positions(|s|), k);
    SelectClosed(s, Positions(|s|), k);
  }

  lemma FirstDifference(r: seq<nat>, t: seq<nat>) returns (i: nat)
    requires |r| == |t| && r != t
    ensures i < |r| && r[i] != t[i] && forall j :: 0 <= j < i ==> r[j] == t[j]
  {
    i := 0;
    while i < |r| && r[i] == t[i]
      invariant i <= |r|
      invariant forall j :: 0 <= j < i ==> r[j] == t[j]
    {
      i := i + 1;
    }
  }

  /** Where two top-k selections first differ, the second one's entry ranks ahead of the first's. */
  lemma TopKAgreeAt(s: seq<real>, k: nat, r: seq<nat>, t: seq<nat>, i: nat)
    requires IsTopK(s, k, r) && IsTopK(s, k, t)
    requires i < |r| && r[i] != t[i] && forall j :: 0 <= j < i ==> r[j] == t[j]
    ensures Before(s, t[i], r[i])
  {
    if r[i] in t {
      var j :| 0 <= j < |t| && t[j] == r[i];
    }
  }

  /**
   * The top-k is unique: any selection meeting `IsTopK` is the one `TopK`
   * computes, which is therefore the first `k` of a stable sort by
   * descending score.
   */
  lemma TopKUnique(s: seq<real>, k: nat, r: seq<nat>)
    requires IsTopK(s, k, r)
    ensures r == TopK(s, k)
  {
    var t := TopK(s, k);
    TopKSpec(s, k);
    if r != t {
      var i := FirstDifference(r, t);
      TopKAgreeAt(s, k, r, t, i);
      TopKAgreeAt(s, k, t, r, i);
    }
  }

  /** A position whose score beats every other is the first of the top-k, for any `k` of at least one. */
  lemma TopKFirst(s: seq<real>, k: nat, p: nat)
    requires k >= 1 && p < |s|
    requires forall q :: 0 <= q < |s| && q != p ==> s[p] > s[q]
    ensures |TopK(s, k)| >= 1 && TopK(s, k)[0] == p
  {
    var r := TopK(s, k);
    TopKSpec(s, k);
    assert !Before(s, r[0], p);
    assert p in r;
    var j :| 0 <= j < |r| && r[j] == p;
    assert j == 0;
  }

  // ---------------------------------------------------------------------
  // The search itself.

  /** Every candidate scored against the query analysis, in index order. */
  function ScoreAll(cands: seq<Candidate>, annotation: seq<Token>, analyze: Analyzer): (r: seq<SearchResult>)
    ensures |r| == |cands|
    ensures forall i :: 0 <= i < |cands| ==>
      r[i] == ScoreCandidate(cands[i], KeywordScore(cands[i].content, annotation, analyze))
  {
    seq(|cands|, i requires 0 <= i < |cands| =>
      ScoreCandidate(cands[i], KeywordScore(cands[i].content, annotation, analyze)))
  }

  function HybridScores(results: seq<SearchResult>): (s: seq<real>)
    ensures |s| == |results| && forall i :: 0 <= i < |results| ==> s[i] == results[i].hybridScore
  {
    seq(|results|, i requires 0 <= i < |results| => results[i].hybridScore)
  }

  /** The results at the given positions, in that order. */
  function Pick(results: seq<SearchResult>, idx: seq<nat>): (r: seq<SearchResult>)
    requires forall j :: 0 <= j < |idx| ==> idx[j] < |results|
    ensures |r| == |idx| && forall j :: 0 <= j < |idx| ==> r[j] == results[idx[j]]
  {
    seq(|idx|, j requires 0 <= j < |idx| => results[idx[j]])
  }

  /**
   * `hybrid_search(query, k)`: preprocesses the query, asks the index for
   * `3·k` candidates with the enhanced text, scores them, and keeps the
   * stable top `k` by hybrid score. An index failure propagates.
   */
  function HybridSearch(query: string, k: nat, analyze: Analyzer, index: VectorIndex): (r: SearchOutcome)
    ensures var p := Preprocess(query, analyze);
      match index(p.enhanced, Oversampling * k)
      case IndexFailed(msg) => r == SearchFailed(msg)
      case Found(cands) =>
        && r.Ranked?
        && |r.results| == (if k < |cands| then k else |cands|)
        && forall i, j :: 0 <= i < j < |r.results| ==> r.results[i].hybridScore >= r.results[j].hybridScore
  {
    var p := Preprocess(query, analyze);
    match index(p.enhanced, Oversampling * k)
    case IndexFailed(msg) => SearchFailed(msg)
    case Found(cands) =>
      var scored := ScoreAll(cands, p.annotation, analyze);
      var idx := TopK(HybridScores(scored), k);
      TopKSpec(HybridScores(scored), k);
      Ranked(Pick(scored, idx))
  }

  /**
   * The ranking in full: the results are the scored candidates at the
   * stable top-k positions of their hybrid scores.
   */
  lemma HybridSearchRanking(query: string, k: nat, analyze: Analyzer, index: VectorIndex)
    requires index(Preprocess(query, analyze).enhanced, Oversampling * k).Found?
    ensures var p := Preprocess(query, analyze);
      var cands := index(p.enhanced, Oversampling * k).candidates;
      var scored := ScoreAll(cands, p.annotation, analyze);
      exists idx ::
        && IsTopK(HybridScores(scored), k, idx)
        && HybridSearch(query, k, analyze, index) == Ranked(Pick(scored, idx))
  {
    var p := Preprocess(query, analyze);
    var cands := index(p.enhanced, Oversampling * k).candidates;
    var scored := ScoreAll(cands, p.annotation, analyze);
    TopKSpec(HybridScores(scored), k);
  }

  /**
   * Each result carries its candidate's passage and provenance, the
   * similarity `1 − distance`, and `0.7·similarity + 0.3·keyword score`.
   */
  lemma HybridSearchScores(query: string, k: nat, analyze: Analyzer, index: VectorIndex, cands: seq<Candidate>, j: nat)
    requires index(Preprocess(query, analyze).enhanced, Oversampling * k) == Found(cands)
    requires j < k && j < |cands|
    ensures HybridSearch(query, k, analyze, index).Ranked? && j < |HybridSearch(query, k, analyze, index).results|
    ensures var res := HybridSearch(query, k, analyze, index).results[j];
      exists c :: c in cands && ScoredAs(res, c, KeywordScore(c.content, Preprocess(query, analyze).annotation, analyze))
  {
    var annotation := Preprocess(query, analyze).annotation;
    var scored := ScoreAll(cands, annotation, analyze);
    var idx := TopK(HybridScores(scored), k);
    TopKSpec(HybridScores(scored), k);
    assert HybridSearch(query, k, analyze, index) == Ranked(Pick(scored, idx));
    var c := cands[idx[j]];
    var kw := KeywordScore(c.content, annotation, analyze);
    assert ScoredAs(scored[idx[j]], c, kw);
    assert c in cands;
  }

  /** `res` is candidate `c` scored with keyword score `keyword`: 1 − distance fused 0.7 / 0.3. */
  ghost predicate ScoredAs(res: SearchResult, c: Candidate, keyword: real)
  {
    && res.content == c.content && res.metadata == c.metadata
    && res.vectorScore == 1.0 - c.distance
    && res.hybridScore == 0.7 * (1.0 - c.distance) + 0.3 * keyword
  }

  /**
   * The candidate closest to the query whose keyword score is at least
   * every other candidate's is the first result, whatever `k >= 1` is.
   */
  lemma HybridSearchFirst(query: string, k: nat, analyze: Analyzer, index: VectorIndex, cands: seq<Candidate>, p: nat)
    requires index(Preprocess(query, analyze).enhanced, Oversampling * k) == Found(cands)
    requires k >= 1 && p < |cands|
    requires forall q :: 0 <= q < |cands| && q != p ==>
      && cands[p].distance < cands[q].distance
      && KeywordScore(cands[p].content, Preprocess(query, analyze).annotation, analyze)
         >= KeywordScore(cands[q].content, Preprocess(query, analyze).annotation, analyze)
    ensures HybridSearch(query, k, analyze, index).Ranked?
    ensures |HybridSearch(query, k, analyze, index).results| >= 1
    ensures HybridSearch(query, k, analyze, index).results[0]
      == ScoreCandidate(cands[p], KeywordScore(cands[p].content, Preprocess(query, analyze).annotation, analyze))
  {
    var annotation := Preprocess(query, analyze).annotation;
    var scored := ScoreAll(cands, annotation, analyze);
    var s := HybridScores(scored);
    forall q | 0 <= q < |s| && q != p
      ensures s[p] > s[q]
    {
      FusionMonotone(cands[p], cands[q], KeywordScore(cands[p].content, annotation, analyze),
                     KeywordScore(cands[q].content, annotation, analyze));
    }
    TopKFirst(s, k, p);
    var idx := TopK(s, k);
    TopKSpec(s, k);
    assert HybridSearch(query, k, analyze, index) == Ranked(Pick(scored, idx));
  }
}

=== FILE: response_cache.dfy ===
/**
 * `ResponseCache` (backend/rag_pipeline.py): answers keyed by question text,
 * expiring after `ttl` seconds and evicting the least recently used entry
 * when more than `capacity` are held. The clock is an explicit `now`.
 */
module ResponseCache {
  import opened Wrappers
  import opened Lru

  /** An answer together with the instant it was stored. */
  datatype Stamped<V> = Stamped(at: real, response: V)

  /** The cache state; `entries` run from least to most recently used. */
  datatype Cache<V> = Cache(capacity: int, ttl: int, entries: seq<Entry<string, Stamped<V>>>)

  const DefaultCapacity: int := 1000
  const DefaultTtl: int := 3600

  /** A freshly constructed cache. */
  function Empty<V>(capacity: int, ttl: int): (c: Cache<V>)
    ensures c.entries == []
    ensures capacity >= 0 ==> Valid(c)
  {
    Cache(capacity, ttl, [])
  }

  /**
   * A cache built with the default capacity and time-to-live is well formed
   * and answers nothing; an answer put into it is returned for an hour.
   */
  lemma DefaultCacheKeepsAnHour<V>(question: string, response: V, now: real, later: real)
    requires later - now <= 3600.0
    ensures var c: Cache<V> := Empty(DefaultCapacity, DefaultTtl);
      && Valid(c)
      && Get(c, question, now).response == None
      && Get(Put(c, question, response, now), question, later).response == Some(response)
  {
    var c: Cache<V> := Empty(DefaultCapacity, DefaultTtl);
    PutThenGetFresh(c, question, response, now, later);
  }

  /** The representation invariant: distinct keys and at most `capacity` entries. */
  ghost predicate Valid<V>(c: Cache<V>)
  {
    DistinctKeys(c.entries) && |c.entries| <= c.capacity
  }

  /** An entry is stale once strictly more than `ttl` seconds old. */
  predicate Expired<V>(c: Cache<V>, s: Stamped<V>, now: real)
  {
    now - s.at > c.ttl as real
  }

  datatype GetResult<V> = GetResult(response: Option<V>, cache: Cache<V>)

  /**
   * `get(question)`: nothing for an absent key (cache untouched); nothing for
   * a stale entry, which is deleted; otherwise the stored answer, with its
   * entry moved to the most recently used end and its timestamp kept.
   */
  function Get<V>(c: Cache<V>, question: string, now: real): (r: GetResult<V>)
    ensures question !in Keys(c.entries) ==> r == GetResult(None, c)
    ensures DistinctKeys(c.entries) ==>
      forall i :: 0 <= i < |c.entries| && c.entries[i].key == question ==>
        var rest := c.entries[..i] + c.entries[i + 1..];
        if Expired(c, c.entries[i].value, now) then r == GetResult(None, c.(entries := rest))
        else r == GetResult(Some(c.entries[i].value.response), c.(entries := rest + [c.entries[i]]))
    ensures Valid(c) ==> Valid(r.cache)
    ensures r.cache.capacity == c.capacity && r.cache.ttl == c.ttl
  {
    match IndexOf(c.entries, question)
    case None => GetResult(None, c)
    case Some(i) =>
      var stamped := c.entries[i].value;
      if Expired(c, stamped, now) then
        RemoveSpec(c.entries, question);
        GetResult(None, c.(entries := Remove(c.entries, question)))
      else
        MoveToEndSpec(c.entries, question);
        GetResult(Some(stamped.response), c.(entries := MoveToEnd(c.entries, question)))
  }

  /**
   * `put(question, response)`: stores the answer stamped `now` as the most
   * recently used entry, replacing any earlier one, then evicts the least
   * recently used entry if the cache holds more than `capacity`.
   */
  function Put<V>(c: Cache<V>, question: string, response: V, now: real): (c': Cache<V>)
    ensures c'.capacity == c.capacity && c'.ttl == c.ttl
    ensures DistinctKeys(c.entries) ==>
      var base := Remove(c.entries, question) + [Entry(question, Stamped(now, response))];
      c'.entries == if |base| > c.capacity then base[1..] else base
    ensures Valid(c) ==> Valid(c')
    ensures Valid(c) && c.capacity >= 1 ==>
      c'.entries[|c'.entries| - 1] == Entry(question, Stamped(now, response))
  {
    var es := MoveToEnd(Assign(c.entries, question, Stamped(now, response)), question);
    PutShape(c.entries, question, Stamped(now, response), c.capacity);
    c.(entries := if |es| > c.capacity then PopFirst(es) else es)
  }

  /** The well-formedness half of `Put`, for any order that starts well formed. */
  lemma PutShape<V>(es: seq<Entry<string, V>>, k: string, v: V, capacity: int)
    ensures DistinctKeys(es) ==>
      var base := Remove(es, k) + [Entry(k, v)];
      && DistinctKeys(base)
      && base[|base| - 1] == Entry(k, v)
      && (|base| > capacity ==> DistinctKeys(base[1..]))
      && |base| <= |es| + 1
      && (k in Keys(es) ==> |base| == |es|)
      && MoveToEnd(Assign(es, k, v), k) == base
  {
    if DistinctKeys(es) {
      AssignMoveToEnd(es, k, v);
      RemoveSpec(es, k);
      AppendFresh(Remove(es, k), Entry(k, v));
      var base := Remove(es, k) + [Entry(k, v)];
      PopFirstSpec(base);
    }
  }

  /**
   * `put` changes nothing but the written question and at most one evicted
   * entry: every other answer still held is the one held before, and when
   * there was room (or the question was already cached) nothing is evicted.
   */
  lemma PutKeepsOthers<V>(c: Cache<V>, question: string, response: V, now: real)
    requires Valid(c)
    ensures var c' := Put(c, question, response, now);
      forall k :: k != question && Lookup(c'.entries, k).Some? ==> Lookup(c'.entries, k) == Lookup(c.entries, k)
    ensures var c' := Put(c, question, response, now);
      |c.entries| < c.capacity || question in Keys(c.entries) ==>
        forall k :: k != question ==> Lookup(c'.entries, k) == Lookup(c.entries, k)
  {
    var e := Entry(question, Stamped(now, response));
    var rest := Remove(c.entries, question);
    var base := rest + [e];
    RemoveSpec(c.entries, question);
    PutShape(c.entries, question, Stamped(now, response), c.capacity);
    PopFirstSpec(base);
    forall k | k != question
      ensures Lookup(base, k) == Lookup(c.entries, k)
    {
      LookupAppend(rest, e, k);
    }
  }

  /** An answer put at `now` is returned by a `get` no more than `ttl` seconds later. */
  lemma PutThenGetFresh<V>(c: Cache<V>, question: string, response: V, now: real, later: real)
    requires Valid(c) && c.capacity >= 1
    requires later - now <= c.ttl as real
    ensures Get(Put(c, question, response, now), question, later).response == Some(response)
  {
    var c' := Put(c, question, response, now);
    var n := |c'.entries|;
    assert c'.entries[n - 1].key == question;
  }

  /** An answer put at `now` is gone, and its entry deleted, once more than `ttl` seconds pass. */
  lemma PutThenGetStale<V>(c: Cache<V>, question: string, response: V, now: real, later: real)
    requires Valid(c) && c.capacity >= 1
    requires later - now > c.ttl as real
    ensures var r := Get(Put(c, question, response, now), question, later);
      r.response == None && question !in Keys(r.cache.entries)
  {
    var c' := Put(c, question, response, now);
    var n := |c'.entries|;
    assert c'.entries[n - 1].key == question;
    IndexOfUnique(c'.entries, n - 1);
    RemoveSpec(c'.entries, question);
  }

  /** A fresh hit read twice at the same instant returns the same answer and leaves the cache as the first read did. */
  lemma GetHitIdempotent<V>(c: Cache<V>, question: string, now: real)
    requires Valid(c)
    requires Get(c, question, now).response.Some?
    ensures var r1 := Get(c, question, now);
      var r2 := Get(r1.cache, question, now);
      r2 == r1
  {
    var i := IndexOf(c.entries, question).value;
    var r1 := Get(c, question, now);
    var es := r1.cache.entries;
    var n := |es|;
    assert es[n - 1] == c.entries[i];
    IndexOfUnique(es, n - 1);
    assert es[..n - 1] + es[n..] + [es[n - 1]] == es;
  }

  /**
   * Least-recently-used protection: an entry just read by `get` survives
   * the next `put` of a different question whenever the capacity is at
   * least two, even if that `put` evicts something.
   */
  lemma GetProtectsFromEviction<V>(c: Cache<V>, a: string, b: string, response: V, now: real, later: real)
    requires Valid(c) && c.capacity >= 2 && a != b
    requires Get(c, a, now).response.Some?
    ensures a in Keys(Put(Get(c, a, now).cache, b, response, later).entries)
  {
    var g := Get(c, a, now).cache;
    var n := |g.entries|;
    assert g.entries[n - 1].key == a;
    var rest := Remove(g.entries, b);
    assert |rest| >= 1 && rest[|rest| - 1] == g.entries[n - 1] by {
      match IndexOf(g.entries, b)
      case None =>
      case Some(ib) =>
        assert ib < n - 1;
        assert rest == g.entries[..ib] + g.entries[ib + 1..];
    }
    var base := rest + [Entry(b, Stamped(later, response))];
    var e := Put(g, b, response, later).entries;
    if |base| > c.capacity {
      assert e[|rest| - 2] == rest[|rest| - 1];
      assert Keys(e)[|rest| - 2] == a;
    } else {
      assert Keys(e)[|rest| - 1] == a;
    }
  }
}

=== FILE: server.dfy ===
/**
 * The HTTP layer (backend/main.py): the `/ask` endpoints validate the
 * question and stream the pipeline's units as server-sent events, and the
 * `/upload` endpoint admits files by extension. Events are kept abstract:
 * their JSON text is not modelled.
 */
module Server {
  import opened Wrappers
  import opened Text
  import opened Ranking
  import opened Pipeline
  import RC = ResponseCache

  /** One server-sent event: a chunk with its provenance and scores, an error, or the end marker. */
  datatype Event =
    | Data(chunk: string, metadata: seq<Metadata>, scores: seq<real>)
    | ErrorEvent(message: string)
    | Done

  function DataEvent(a: Answer): Event
  {
    Data(a.text, a.metadata, a.scores)
  }

  /**
   * `stream_response`'s framing: one data event per unit in order, then an
   * error event if the stream raised, then exactly one end marker.
   */
  function Frame(units: seq<Answer>, error: Option<string>): (evs: seq<Event>)
    ensures |evs| >= 1 && evs[|evs| - 1] == Done
    ensures forall i :: 0 <= i < |evs| - 1 ==> !evs[i].Done?
    ensures |evs| == |units| + (if error.Some? then 2 else 1)
    decreases |units|
  {
    if |units| == 0 then
      match error
      case None => [Done]
      case Some(msg) => [ErrorEvent(msg), Done]
    else
      [DataEvent(units[0])] + Frame(units[1..], error)
  }

  /** What a client reads back from a well-formed event stream. */
  datatype Received = Received(units: seq<Answer>, error: Option<string>)

  /**
   * A client's reading of an event stream: data events until an end marker,
   * optionally preceded by one error event. Anything else is malformed.
   */
  function Unframe(evs: seq<Event>): (r: Option<Received>)
    decreases |evs|
  {
    if |evs| == 0 then None
    else match evs[0]
      case Done => if |evs| == 1 then Some(Received([], None)) else None
      case ErrorEvent(msg) => if evs[1..] == [Done] then Some(Received([], Some(msg))) else None
      case Data(chunk, metadata, scores) =>
        match Unframe(evs[1..])
        case None => None
        case Some(rest) => Some(Received([Answer(chunk, metadata, scores)] + rest.units, rest.error))
  }

  /** A client recovers exactly the units and the error the server framed. */
  lemma {:induction false} UnframeFrame(units: seq<Answer>, error: Option<string>)
    ensures Unframe(Frame(units, error)) == Some(Received(units, error))
    decreases |units|
  {
    if |units| > 0 {
      var tail := Frame(units[1..], error);
      var evs := [DataEvent(units[0])] + tail;
      assert Frame(units, error) == evs;
      assert evs[1..] == tail;
      UnframeFrame(units[1..], error);
      var rest := Unframe(tail).value;
      assert Unframe(evs) == Some(Received([units[0]] + rest.units, rest.error));
      assert [units[0]] + units[1..] == units;
    }
  }

  /** Every stream a client accepts is the framing of what it read. */
  lemma {:induction false} FrameUnframe(evs: seq<Event>)
    requires Unframe(evs).Some?
    ensures Frame(Unframe(evs).value.units, Unframe(evs).value.error) == evs
    decreases |evs|
  {
    match evs[0]
    case Done =>
    case ErrorEvent(msg) =>
      assert evs == [ErrorEvent(msg)] + evs[1..];
    case Data(chunk, metadata, scores) =>
      var rest := Unframe(evs[1..]).value;
      FrameUnframe(evs[1..]);
      var units := [Answer(chunk, metadata, scores)] + rest.units;
      assert units[1..] == rest.units;
      assert evs == [evs[0]] + evs[1..];
  }

  /**
   * After an error event there is nothing but the end marker: no data event
   * follows it.
   */
  lemma {:induction false} ErrorIsLast(units: seq<Answer>, msg: string)
    ensures var evs := Frame(units, Some(msg));
      && evs[|evs| - 2] == ErrorEvent(msg)
      && forall i :: 0 <= i < |evs| - 2 ==> evs[i] == DataEvent(units[i])
    decreases |units|
  {
    if |units| > 0 {
      ErrorIsLast(units[1..], msg);
      var evs := Frame(units, Some(msg));
      assert evs == [DataEvent(units[0])] + Frame(units[1..], Some(msg));
    }
  }

  // ---------------------------------------------------------------------
  // Calling the pipeline.

  /** The keyword parameters `answer_question_stream` declares besides the query. */
  const StreamKeywords: set<string> := {"k", "use_cache"}

  const UnexpectedKeywordPrefix: string := "RAGPipeline.answer_question_stream() got an unexpected keyword argument '"

  /** Python's binding of keyword arguments: the `TypeError` message for the first one the signature lacks. */
  function BindKeywords(names: seq<string>): (r: Option<string>)
    ensures r.None? <==> forall i :: 0 <= i < |names| ==> names[i] in StreamKeywords
    ensures r.Some? ==>
      exists i :: 0 <= i < |names| && names[i] !in StreamKeywords && r.value == UnexpectedKeywordPrefix + names[i] + "'"
  {
    if |names| == 0 then None
    else if names[0] !in StreamKeywords then Some(UnexpectedKeywordPrefix + names[0] + "'")
    else
      var r := BindKeywords(names[1..]);
      assert forall i :: 1 <= i < |names| ==> names[i] == names[1..][i - 1];
      r
  }

  /** The events of one stream together with the response cache after it. */
  datatype Streamed = Streamed(events: seq<Event>, cache: RC.Cache<Answer>)

  /**
   * `stream_response` as shipped: it passes `use_cache=` and `history=` to
   * `answer_question_stream`, whose signature has no `history`, so the call
   * raises `TypeError` before the pipeline runs and the handler frames it.
   */
  function StreamResponseAsWritten(cache: RC.Cache<Answer>, question: string, useCache: bool, env: Env,
                                   atLookup: real, atStore: real): (r: Streamed)
  {
    match BindKeywords(["use_cache", "history"])
    case Some(msg) => Streamed(Frame([], Some(msg)), cache)
    case None =>
      var run := AnswerStream(cache, question, DefaultTopK, useCache, env, atLookup, atStore);
      Streamed(Frame(run.units, run.error), run.cache)
  }

  /**
   * As shipped, every stream is the error path: one error event naming the
   * `history` keyword, then the end marker, whatever the question, the
   * cache or the collaborators; the cache is never touched.
   */
  lemma HistoryKeywordAlwaysFails(cache: RC.Cache<Answer>, question: string, useCache: bool, env: Env,
                                  atLookup: real, atStore: real)
    ensures StreamResponseAsWritten(cache, question, useCache, env, atLookup, atStore)
      == Streamed([ErrorEvent(UnexpectedKeywordPrefix + "history" + "'"), Done], cache)
  {
    var rest := ["history"];
    assert rest[0] == "history" && rest[0] !in StreamKeywords;
    assert BindKeywords(rest) == Some(UnexpectedKeywordPrefix + "history" + "'");
    assert BindKeywords(["use_cache", "history"]) == Some(UnexpectedKeywordPrefix + "history" + "'") by {
      assert "use_cache" in StreamKeywords;
      assert ["use_cache", "history"][1..] == ["history"];
    }
  }

  /**
   * `stream_response` with the history dropped: the call binds, and the
   * pipeline's units and error are framed as events.
   */
  function StreamResponse(cache: RC.Cache<Answer>, question: string, useCache: bool, env: Env,
                          atLookup: real, atStore: real): (r: Streamed)
    ensures var run := AnswerStream(cache, question, DefaultTopK, useCache, env, atLookup, atStore);
      && Unframe(r.events) == Some(Received(run.units, run.error))
      && r.cache == run.cache
  {
    var names := ["use_cache"];
    assert BindKeywords(names) == None by {
      assert forall i :: 0 <= i < |names| ==> names[i] in StreamKeywords;
    }
    var run := AnswerStream(cache, question, DefaultTopK, useCache, env, atLookup, atStore);
    UnframeFrame(run.units, run.error);
    Streamed(Frame(run.units, run.error), run.cache)
  }

  /** With the keyword dropped, a cached question streams its stored answer as one data event. */
  lemma CorrectedStreamServesCache(cache: RC.Cache<Answer>, question: string, env: Env,
                                   atLookup: real, atStore: real, a: Answer)
    requires RC.Get(cache, question, atLookup).response == Some(a)
    ensures StreamResponse(cache, question, true, env, atLookup, atStore).events == [DataEvent(a), Done]
  {
    var evs := StreamResponse(cache, question, true, env, atLookup, atStore).events;
    FrameUnframe(evs);
  }

  // ---------------------------------------------------------------------
  // Endpoints.

  const QuestionRequired: string := "`question` field is required"

  datatype AskResponse = BadRequest(status: nat, detail: string) | Streaming(stream: Streamed)

  /**
   * GET `/ask`: a question that is blank once stripped is refused with 400;
   * otherwise the stripped question is streamed.
   */
  function AskGet(cache: RC.Cache<Answer>, question: string, useCache: bool, env: Env,
                  atLookup: real, atStore: real): (r: AskResponse)
    ensures r.BadRequest? <==> AllSpace(question)
    ensures r.BadRequest? ==> r == BadRequest(400, QuestionRequired)
    ensures r.Streaming? ==> r.stream == StreamResponse(cache, Strip(question), useCache, env, atLookup, atStore)
  {
    if Strip(question) == [] then BadRequest(400, QuestionRequired)
    else Streaming(StreamResponse(cache, Strip(question), useCache, env, atLookup, atStore))
  }

  /** A POST `/ask` body; `history` is accepted and unused. */
  datatype AskRequest = AskRequest(question: string, useCache: bool, history: Option<seq<map<string, string>>>)

  /** POST `/ask`: the question is stripped first, then refused with 400 if empty. */
  function AskPost(cache: RC.Cache<Answer>, payload: AskRequest, env: Env,
                   atLookup: real, atStore: real): (r: AskResponse)
    ensures r.BadRequest? <==> AllSpace(payload.question)
    ensures r.Streaming? ==> r.stream == StreamResponse(cache, Strip(payload.question), payload.useCache, env, atLookup, atStore)
  {
    var question := Strip(payload.question);
    if question == [] then BadRequest(400, QuestionRequired)
    else Streaming(StreamResponse(cache, question, payload.useCache, env, atLookup, atStore))
  }

  /** GET and POST agree: the same question and flag give the same response. */
  lemma AskEndpointsAgree(cache: RC.Cache<Answer>, payload: AskRequest, env: Env, atLookup: real, atStore: real)
    ensures AskPost(cache, payload, env, atLookup, atStore)
      == AskGet(cache, payload.question, payload.useCache, env, atLookup, atStore)
  {
  }

  /** Surrounding whitespace does not change what is asked: the question is stripped before the cache sees it. */
  lemma AskIgnoresPadding(cache: RC.Cache<Answer>, question: string, useCache: bool, env: Env,
                          atLookup: real, atStore: real)
    ensures AskGet(cache, Strip(question), useCache, env, atLookup, atStore)
      == AskGet(cache, question, useCache, env, atLookup, atStore)
  {
    StripIdempotent(question);
    assert AllSpace(Strip(question)) <==> AllSpace(question);
  }

  // ---------------------------------------------------------------------
  // Upload admission.

  const AllowedExtensions: set<string> := {".txt", ".pdf", ".md", ".doc", ".docx"}

  /** The final component of a POSIX path, skipping empty and `.` components (`PurePosixPath.name`). */
  function BaseName(path: string): (name: string)
    ensures '/' !in name
  {
    LastComponent(Split('/', path))
  }

  function LastComponent(parts: seq<string>): (name: string)
    requires forall i :: 0 <= i < |parts| ==> '/' !in parts[i]
    ensures '/' !in name
    decreases |parts|
  {
    if |parts| == 0 then ""
    else
      var last := parts[|parts| - 1];
      if last == "" || last == "." then LastComponent(parts[..|parts| - 1]) else last
  }

  /** Index of the last `.` in `s`, if any (`str.rfind`). */
  function LastDot(s: string): (r: Option<nat>)
    ensures r.None? <==> '.' !in s
    ensures r.Some? ==> r.value < |s| && s[r.value] == '.' && '.' !in s[r.value + 1..]
    ensures r.Some? ==> forall j :: r.value < j < |s| ==> s[j] != '.'
    decreases |s|
  {
    if |s| == 0 then None
    else if s[|s| - 1] == '.' then Some(|s| - 1)
    else
      var r := LastDot(s[..|s| - 1]);
      assert forall j :: 0 <= j < |s| - 1 ==> s[j] == s[..|s| - 1][j];
      assert r.Some? ==> s[r.value + 1..] == s[..|s| - 1][r.value + 1..] + [s[|s| - 1]];
      r
  }

  /**
   * `PurePath.suffix`: from the last dot of the name, provided that dot is
   * neither the first nor the last character; otherwise empty.
   */
  function Suffix(path: string): (ext: string)
  {
    var name := BaseName(path);
    match LastDot(name)
    case Some(i) => if 0 < i < |name| - 1 then name[i..] else ""
    case None => ""
  }

  datatype UploadDecision = Rejected(status: nat, error: string) | Admitted

  const NotAllowedMessage: string := "File type not allowed. Allowed types: "

  /**
   * `upload_file`'s admission check: a file whose lower-cased suffix is not
   * in the allow-list is refused with 400 before anything is written.
   * Saving and indexing an admitted file are not modelled.
   */
  function Upload(filename: string): (r: UploadDecision)
    ensures r.Rejected? ==> r.status == 400
  {
    if Lower(Suffix(filename)) in AllowedExtensions then Admitted
    else Rejected(400, NotAllowedMessage)
  }

  /**
   * Admission, characterised on the file's base name: admitted exactly when
   * the name splits at a dot, not its first character, into a stem and an
   * extension with no further dot whose lower-case form is allowed.
   */
  lemma UploadAdmitsExactly(filename: string)
    ensures Upload(filename).Admitted? <==>
      var name := BaseName(filename);
      exists i :: 0 < i < |name| && name[i] == '.' && '.' !in name[i + 1..] && Lower(name[i..]) in AllowedExtensions
  {
    var name := BaseName(filename);
    if Upload(filename).Admitted? {
      var i := LastDot(name).value;
      assert 0 < i < |name| && name[i] == '.' && '.' !in name[i + 1..] && Lower(name[i..]) in AllowedExtensions;
    } else {
      forall i | 0 < i < |name| && name[i] == '.' && '.' !in name[i + 1..]
        ensures Lower(name[i..]) !in AllowedExtensions
      {
        var j := LastDot(name).value;
        assert i == j;
        if i == |name| - 1 {
          assert |Lower(name[i..])| == 1;
        }
      }
    }
  }

  /** A name with no slash that is neither empty nor `.` is its own base name. */
  lemma PlainBaseName(name: string)
    requires '/' !in name && name != "" && name != "."
    ensures BaseName(name) == name
  {
    assert Split('/', name) == [name];
  }

  /** The last dot of `stem.ext` is the one before `ext` when `ext` has none. */
  lemma {:induction false} LastDotBefore(stem: string, ext: string)
    requires '.' !in ext
    ensures LastDot(stem + "." + ext) == Some(|stem|)
    decreases |ext|
  {
    var s := stem + "." + ext;
    if |ext| > 0 {
      var shorter := ext[..|ext| - 1];
      assert s[..|s| - 1] == stem + "." + shorter;
      assert s[|s| - 1] == ext[|ext| - 1];
      assert forall j :: 0 <= j < |shorter| ==> shorter[j] == ext[j];
      LastDotBefore(stem, shorter);
    }
  }

  /** The suffix of a plain `stem.ext` name: `.ext`, unless the stem or the extension is empty. */
  lemma SuffixOf(stem: string, ext: string)
    requires '.' !in ext && '/' !in stem && '/' !in ext
    ensures Suffix(stem + "." + ext) == if stem != "" && ext != "" then "." + ext else ""
  {
    var name := stem + "." + ext;
    assert '/' !in name;
    assert Split('/', name) == [name];
    if name == "." {
      assert LastComponent([name]) == LastComponent([]);
    } else {
      LastDotBefore(stem, ext);
      assert name[|stem|..] == "." + ext;
    }
  }

  /** The case folding and allow-list facts the examples below rely on. */
  lemma LowerExamples()
    ensures Lower(".PDF") == ".pdf" && Lower(".gz") == ".gz"
    ensures ".pdf" in AllowedExtensions && ".gz" !in AllowedExtensions
  {
    assert Lower(".PDF") == [LowerChar('.'), LowerChar('P'), LowerChar('D'), LowerChar('F')];
  }

  /** The extension check ignores letter case: any plain name ending `.PDF` is admitted. */
  lemma UploadIgnoresCase(stem: string)
    requires '/' !in stem && stem != ""
    ensures Upload(stem + "." + "PDF").Admitted?
  {
    assert Lower("." + "PDF") in AllowedExtensions by {
      assert "." + "PDF" == ".PDF";
      LowerExamples();
    }
    UploadByExtension(stem, "PDF");
  }

  /** A hidden file whose whole name is an extension, such as `.txt`, has no suffix and is refused. */
  lemma UploadRejectsBareExtension(ext: string)
    requires '.' !in ext && '/' !in ext
    ensures Upload("." + ext).Rejected?
  {
    SuffixOf("", ext);
    assert "" + "." + ext == "." + ext;
    assert Lower("") !in AllowedExtensions;
  }

  /** A name ending in a dot has no suffix, and is refused. */
  lemma UploadRejectsTrailingDot(stem: string)
    requires '/' !in stem
    ensures Upload(stem + ".").Rejected?
  {
    SuffixOf(stem, "");
    assert stem + "." + "" == stem + ".";
    assert Lower("") !in AllowedExtensions;
  }

  /** Only the last extension counts: `name.txt.gz` is refused. */
  lemma UploadRejectsDoubleExtension(stem: string)
    requires '/' !in stem
    ensures Upload(stem + ".txt" + "." + "gz").Rejected?
  {
    assert '/' !in stem + ".txt";
    assert Lower("." + "gz") !in AllowedExtensions by {
      assert "." + "gz" == ".gz";
      LowerExamples();
    }
    UploadByExtension(stem + ".txt", "gz");
  }

  /**
   * A plain name `stem.ext` with a non-empty stem and a dot-free extension
   * is admitted exactly when `.ext`, lower-cased, is allowed.
   */
  lemma UploadByExtension(stem: string, ext: string)
    requires '.' !in ext && '/' !in stem && '/' !in ext
    requires stem != "" && ext != ""
    ensures Upload(stem + "." + ext).Admitted? <==> Lower("." + ext) in AllowedExtensions
  {
    SuffixOf(stem, ext);
  }
}

=== FILE: text.dfy ===
/**
 * The string helpers the pipeline relies on, with Python's meaning:
 * `str.strip()`, ASCII `str.lower()`, `sep.join(parts)` and `str.split(c)`.
 */
module Text {

  /** Python's `str.isspace()` on a single character. */
  predicate IsSpace(c: char)
  {
    var n := c as int;
    n == 0x20 || 0x09 <= n <= 0x0D || 0x1C <= n <= 0x1F || n == 0x85 || n == 0xA0
    || n == 0x1680 || 0x2000 <= n <= 0x200A || n == 0x2028 || n == 0x2029
    || n == 0x202F || n == 0x205F || n == 0x3000
  }

  predicate AllSpace(s: string)
  {
    forall i :: 0 <= i < |s| ==> IsSpace(s[i])
  }

  /** Number of whitespace characters at the front of `s`. */
  function LeadingSpaces(s: string): (n: nat)
    ensures n <= |s|
    ensures AllSpace(s[..n])
    ensures n < |s| ==> !IsSpace(s[n])
  {
    if |s| == 0 || !IsSpace(s[0]) then 0
    else
      var n := 1 + LeadingSpaces(s[1..]);
      assert s[..n] == [s[0]] + s[1..][..n - 1];
      n
  }

  /** Number of whitespace characters at the back of `s`. */
  function TrailingSpaces(s: string): (n: nat)
    ensures n <= |s|
    ensures AllSpace(s[|s| - n..])
    ensures n < |s| ==> !IsSpace(s[|s| - 1 - n])
  {
    if |s| == 0 || !IsSpace(s[|s| - 1]) then 0
    else
      var t := s[..|s| - 1];
      var n := 1 + TrailingSpaces(t);
      var tail := s[|s| - n..];
      assert AllSpace(tail) by {
        forall j | 0 <= j < |tail|
          ensures IsSpace(tail[j])
        {
          if j < n - 1 {
            assert tail[j] == t[|t| - (n - 1)..][j];
          }
        }
      }
      assert n < |s| ==> s[|s| - 1 - n] == t[|t| - 1 - (n - 1)];
      n
  }

  /**
   * Python's `s.strip()`: `s` without its leading and trailing whitespace.
   * The result is empty exactly when `s` is all whitespace.
   */
  function Strip(s: string): (r: string)
    ensures |r| <= |s|
    ensures r == [] <==> AllSpace(s)
    ensures |r| > 0 ==> !IsSpace(r[0]) && !IsSpace(r[|r| - 1])
    ensures exists a, b :: s == a + r + b && AllSpace(a) && AllSpace(b)
  {
    var lead := LeadingSpaces(s);
    if lead == |s| then
      assert s[..lead] == s;
      assert s == s + [] + [] && AllSpace([]);
      []
    else
      var trail := TrailingSpaces(s);
      assert lead < |s| - trail;
      var r := s[lead..|s| - trail];
      assert s == s[..lead] + r + s[|s| - trail..];
      assert !AllSpace(s) by { assert !IsSpace(s[lead]); }
      r
  }

  /** Stripping twice is the same as stripping once. */
  lemma StripIdempotent(s: string)
    ensures Strip(Strip(s)) == Strip(s)
  {
    var r := Strip(s);
    if |r| > 0 {
      assert LeadingSpaces(r) == 0;
      assert TrailingSpaces(r) == 0;
      assert r[0..|r| - 0] == r;
    }
  }

  /** Python's `c.lower()` restricted to ASCII letters. */
  function LowerChar(c: char): (d: char)
    ensures 'A' <= c <= 'Z' ==> 'a' <= d <= 'z' && d as int - c as int == 32
    ensures !('A' <= c <= 'Z') ==> d == c
  {
    if 'A' <= c <= 'Z' then (c as int + 32) as char else c
  }

  /**
   * Python's `s.lower()` for ASCII text: same length, no upper-case letter
   * left, and each character either kept or an upper-case letter replaced
   * by its lower-case partner.
   */
  function Lower(s: string): (r: string)
    ensures |r| == |s|
    ensures forall i :: 0 <= i < |r| ==> !('A' <= r[i] <= 'Z')
    ensures forall i :: 0 <= i < |s| ==>
      r[i] == s[i] || ('A' <= s[i] <= 'Z' && r[i] as int == s[i] as int + 32)
  {
    seq(|s|, i requires 0 <= i < |s| => LowerChar(s[i]))
  }

  /** Lower-casing is idempotent. */
  lemma LowerIdempotent(s: string)
    ensures Lower(Lower(s)) == Lower(s)
  {
    var r := Lower(s);
    assert forall i :: 0 <= i < |r| ==> Lower(r)[i] == r[i];
  }

  /** Python's `sep.join(parts)`. */
  function Join(sep: string, parts: seq<string>): (r: string)
    ensures |parts| == 0 ==> r == []
    ensures |parts| == 1 ==> r == parts[0]
    decreases |parts|
  {
    if |parts| == 0 then []
    else if |parts| == 1 then parts[0]
    else parts[0] + sep + Join(sep, parts[1..])
  }

  /** Index of the first occurrence of `c` in `s`, if any. */
  function FirstIndex(c: char, s: string): (i: nat)
    requires c in s
    ensures i < |s| && s[i] == c && c !in s[..i]
    ensures forall j :: 0 <= j < i ==> s[j] != c
  {
    if s[0] == c then 0
    else
      var i := 1 + FirstIndex(c, s[1..]);
      assert s[..i] == [s[0]] + s[1..][..i - 1];
      i
  }

  /** The first `c` after a run free of `c` is the one that ends it. */
  lemma FirstIndexAfter(c: char, p: string, rest: string)
    requires c !in p
    ensures FirstIndex(c, p + [c] + rest) == |p|
  {
    var s := p + [c] + rest;
    assert s[|p|] == c;
    assert forall j :: 0 <= j < |p| ==> s[j] == p[j];
  }

  /** Python's `s.split(c)` for a one-character separator. */
  function Split(c: char, s: string): (parts: seq<string>)
    ensures |parts| >= 1
    ensures forall k :: 0 <= k < |parts| ==> c !in parts[k]
    decreases |s|
  {
    if c !in s then [s]
    else
      var i := FirstIndex(c, s);
      [s[..i]] + Split(c, s[i + 1..])
  }

  /** Splitting text that starts with a separator-free run and a separator peels that run off. */
  lemma SplitCons(c: char, p: string, rest: string)
    requires c !in p
    ensures Split(c, p + [c] + rest) == [p] + Split(c, rest)
  {
    var s := p + [c] + rest;
    assert s[|p|] == c;
    FirstIndexAfter(c, p, rest);
    assert s[..|p|] == p;
    assert s[|p| + 1..] == rest;
  }

  /**
   * Joining with a one-character separator and splitting on it again gives
   * back the parts, provided no part contains the separator.
   */
  lemma {:induction false} SplitJoin(c: char, parts: seq<string>)
    requires |parts| >= 1
    requires forall k :: 0 <= k < |parts| ==> c !in parts[k]
    ensures Split(c, Join([c], parts)) == parts
    decreases |parts|
  {
    if |parts| == 1 {
      assert Join([c], parts) == parts[0];
    } else {
      assert Join([c], parts) == parts[0] + [c] + Join([c], parts[1..]);
      SplitCons(c, parts[0], Join([c], parts[1..]));
      SplitJoin(c, parts[1..]);
      assert parts == [parts[0]] + parts[1..];
    }
  }
}

=== FILE: wrappers.dfy ===
/** Optional values, the model's stand-in for Python's `None`. */
module Wrappers {

  datatype Option<+T> = None | Some(value: T)
}
